=== FILE: README.md ===
# deepresearch lead-research loop, modelled in Dafny

This project models the core of the `deepresearch` lead-generation agent. For a
lead-criteria topic the agent runs a fixed graph: it writes a search query, searches
the web, extracts LinkedIn profile URLs from the hits and resolves each one against a
local profile store, summarizes the leads, reflects to produce a follow-up query, and
repeats until the loop budget is spent. It then renders a final lead list. The model covers:

- `Sources` (`sources.dfy`): the two source formatters, `format_sources` and
  `deduplicate_and_format_sources`. Both are methods with loops, each proved against a
  specification function.
- `ProfileUrls` (`profile_urls.dfy`): the profile-URL extractor. It is written as a
  scanner with the leftmost, greedy, non-overlapping semantics of `re.findall`, and is
  proved sound and complete with respect to the pattern.
- `ProfileStore` (`profile_store.dfy`): the profile store protocol. The write side names
  files `{id}_{timestamp}.json`. The read side derives the id from the last `/`-segment,
  filters the listing and picks the greatest name. On a miss, the vendor request returns
  a pending placeholder. The directory is a snapshot, a listing plus a name-to-record
  map, and the vendor call is an outcome passed in.
- `ResearchGraph` (`research_graph.dfy`): the state record (`SummaryState`) and every
  node as a transition on it: the JSON-fallback query nodes, `web_research`,
  `summarize_leads` and `finalize_leads`.
- `ResearchLoop` (`research_loop.dfy`): `route_research`, the edges, and an interpreter
  that runs the graph to its end. A run makes `max + 1` search rounds (one when `max` is
  negative), because the route test is `<=`.
- Shared helpers: `Text` (Python's `join`, `split('\n')`, `strip()` emptiness, `str(int)`),
  `LexOrder` (Python's string order and `sorted()[-1]`), `Wrappers` and `Errors`.

The language models, the web search and the profile lookup that `web_research` calls
are function-valued parameters. The loop budget is a parameter.

Three behaviours of the code shape the model:
- `web_research` replaces `sources_gathered` and `web_research_results` with one-element
  lists, because the state declares no reducer. Only `linkedin_profiles` accumulates, so
  the final list's sources section holds the listing of the last search only.
- A cached profile is returned as stored, with no status added.
- A missing `CLAY_WEBHOOK_URL` raises out of the lookup; it does not degrade to a
  pending record.

## Model

| member | source | states |
|---|---|---|
| Text.SplitJoin | deepresearch/graph.py:301 | splitting a newline-join of newline-free lines at `\n` gives the lines back |
| Text.JoinSplit | deepresearch/graph.py:301 | joining the pieces of `split('\n')` with `\n` rebuilds the text |
| LexOrder.Greatest | deepresearch/utils.py:207 | `sorted(names)[-1]`: the result is one of the names and no name is greater in Python's string order |
| LexOrder.LessTransitive | deepresearch/utils.py:207 | Python's string order is transitive, so the greatest name is well defined |
| LexOrder.LessTotal | deepresearch/utils.py:207 | of two different strings one is smaller |
| LexOrder.GreatestIgnoresOrder | deepresearch/utils.py:207 | the greatest name depends only on which names are listed, not on the listing order |
| Sources.FormatSources | deepresearch/utils.py:73-76 | the text is the `\n`-join of the lines `{i}. {title} - {url}`, numbered from 1 in input order; it is empty exactly when there are no hits |
| Sources.ListingHasOneLinePerSource | deepresearch/utils.py:73-76 | when no title or URL holds a newline, the listing splits back into exactly one line per hit, in order |
| Sources.KeptIndices | deepresearch/utils.py:89-96 | the kept positions increase, and a position is kept exactly when its URL is non-empty and did not occur at an earlier position |
| Sources.RetainedAreKept | deepresearch/utils.py:89-96 | the retained hits are the hits at the kept positions, in input order |
| Sources.RetainedUrls | deepresearch/utils.py:89-96 | retained URLs are non-empty and pairwise distinct, and there are as many retained hits as distinct non-empty URLs |
| Sources.Truncate | deepresearch/utils.py:104-106 | content longer than `4*max` characters becomes its first `4*max` characters plus `...`; shorter content is kept verbatim; the result never exceeds `4*max+3` characters |
| Sources.RetainUnique | deepresearch/utils.py:89-96 | the seen-set loop keeps exactly the retained hits, in input order |
| Sources.FormatBlocks | deepresearch/utils.py:98-109 | the numbering loop renders one block per hit it is given, the i-th numbered i from 1 |
| Sources.DeduplicateAndFormatSources | deepresearch/utils.py:89-111 | the text is the blocks `SOURCE i:` / `Title:` / `URL:` / `Content:` of the retained hits, numbered from 1, joined by a blank line |
| ProfileUrls.IdRun | deepresearch/utils.py:124 | the identifier run is made of `[A-Za-z0-9_-]` and stops at the end or at the first other character |
| ProfileUrls.MatchLenSound | deepresearch/utils.py:124-125 | a non-zero length is a match of the pattern at that position, with the identifier taken greedily |
| ProfileUrls.MatchLenComplete | deepresearch/utils.py:124-125 | wherever the pattern matches, the scanner reports that very match |
| ProfileUrls.FindSpans | deepresearch/utils.py:125 | every span is a match; spans are left to right and do not overlap; every matching position inside the scanned range lies in a span |
| ProfileUrls.ExtractUrls | deepresearch/utils.py:124-125 | every result is `http://` or `https://`, optional `www.`, `linkedin.com/in/`, then a non-empty identifier |
| ProfileUrls.ExtractUrlsEmpty | deepresearch/utils.py:125 | the result is empty exactly when the pattern matches nowhere |
| ProfileStore.LastSegment | deepresearch/utils.py:202 | `split('/')[-1]`: a suffix without `/`, preceded by `/` whenever it is not the whole text |
| ProfileStore.FileName | deepresearch/utils.py:179-181 | the name is the id, `_`, the 14-digit timestamp and `.json` |
| ProfileStore.Save | deepresearch/utils.py:179-186 | after a save the name is listed, the file holds the payload, and no other name appears |
| ProfileStore.Select | deepresearch/utils.py:203 | a name is selected exactly when it is listed and passes the test |
| ProfileStore.SendToVendor | deepresearch/utils.py:137-166 | raises exactly when the webhook URL is missing or empty; the request carries the profile URL and the callback URL (its default when unset); a non-200 reply or a transport failure yields an `error` record; a 200 reply yields its JSON body, or the `success` record when the body is not JSON |
| ProfileStore.ResolveAmong | deepresearch/utils.py:205-220 | with candidates, the greatest one is read from the store, and a listed but missing file is an error; without candidates, the result is the pending placeholder for the URL whatever the vendor answered, and it raises exactly when the webhook URL is missing |
| ProfileStore.ResolveAsWritten | deepresearch/utils.py:202-220 | the lookup as the program runs it: with a listed name that starts with the id and ends in `.json`, the result is the greatest such name's stored record, or a missing-file error naming it; with none, the pending placeholder, or the missing-webhook error exactly when the webhook URL is missing or empty |
| ProfileStore.Resolve | deepresearch/utils.py:202-220 | the intended lookup: with a listed file saved for exactly this id, the result is the greatest such file's stored record, or a missing-file error naming it; with none, the pending placeholder, or the missing-webhook error exactly when the webhook URL is missing or empty |
| ProfileStore.SavedNameIsCandidateExactly | deepresearch/utils.py:179-181 | a saved file is a candidate for an id exactly when that id is the payload's id |
| ProfileStore.ExtractedUrlId | deepresearch/utils.py:202 | the id of an extracted profile URL is the non-empty identifier after `/in/` |
| ProfileStore.SaveThenResolve | deepresearch/utils.py:179-209 | with the intended lookup (Resolve), last write wins: after saving a payload with a `url` at a time no earlier than every stamp already filed for its id (in particular, the first save for it), looking that URL up returns the saved file and payload |
| ProfileStore.CandidateOrderIsStampOrder | deepresearch/utils.py:207 | among the files of one id, name order is timestamp order |
| ProfileStore.ResolvePicksNewest | deepresearch/utils.py:205-209 | with the intended lookup (Resolve), the cached file carries the newest timestamp among the id's files |
| ProfileStore.ResolveIgnoresListingOrder | deepresearch/utils.py:203-207 | the lookup depends on which names are listed, not on their order |
| ProfileStore.ResolveAsWrittenIgnoresListingOrder | deepresearch/utils.py:203-207 | the lookup as written, too, depends only on which names are listed |
| ProfileStore.CandidateIsCandidateAsWritten | deepresearch/utils.py:203 | every file saved for an id passes the prefix test for that id, so the lookup as written always sees it |
| ProfileStore.AsWrittenConfusesPrefixIds | deepresearch/utils.py:203 | with the prefix test, a file of any longer id that starts with the wanted id is returned, where the exact test requests the profile |
| ProfileStore.JaneGetsJanetsFile | deepresearch/utils.py:203 | the lookup for `.../in/jane` returns the record stored as `janet_20240101000000.json` |
| ProfileStore.AsWrittenPrefersLongerId | deepresearch/utils.py:203-207 | when a longer id continues the wanted id with a character above `_`, the lookup as written returns that id's file even though the profile's own file is listed, whatever the stamps; the exact test returns the profile's own file |
| ProfileStore.JanetsOlderFileBeatsJanesNewer | deepresearch/utils.py:203-207 | with `janet_20240101000000.json` and `jane_20250101000000.json` listed, the lookup for `.../in/jane` as written returns Janet's older record, the intended one Jane's own |
| ResearchGraph.QueryFromReply | deepresearch/graph.py:84-89 | a JSON object gives its `query` field, or the raw text when it has none; text that is not JSON gives itself; any other JSON value raises |
| ResearchGraph.GenerateQuery | deepresearch/graph.py:60-90 | the writer sees the topic; on success only `search_query` changes; it fails exactly when the reply is JSON but not an object |
| ResearchGraph.ReflectOnLeads | deepresearch/graph.py:247-275 | the reflector sees the topic and the summary, or `No leads available yet.`; on success only `search_query` changes |
| ResearchGraph.EffectiveQuery | deepresearch/graph.py:111-113 | the query searched for is never empty: a missing or empty query becomes `leads for {topic}` |
| ResearchGraph.CollectUrls | deepresearch/graph.py:126-131 | the URLs of the hits, content before title, hit by hit |
| ResearchGraph.CollectedUrlsAreProfileUrls | deepresearch/graph.py:126-134 | every collected URL is a profile URL |
| ResearchGraph.ResolveAll | deepresearch/graph.py:137-140 | each distinct URL is resolved once, in some order; it succeeds exactly when every URL resolves |
| ResearchGraph.WebResearch | deepresearch/graph.py:111-148 | succeeds exactly when the search and every URL's lookup succeed; a failed search is passed on. On success, the count becomes the old count (0 if absent) plus one, and this search's listing and blocks replace the old ones. The prior profiles stay an unchanged prefix, followed by one record per distinct URL in an unspecified order |
| ResearchGraph.SummarizeLeads | deepresearch/graph.py:166-230 | the message is the specified document, and only the running summary changes, to the summarizer's answer |
| ResearchGraph.BuildProfileBlock | deepresearch/graph.py:183-196 | the loop yields no block without profiles, and otherwise one line per profile in order, noted when pending, between the profile tags |
| ResearchGraph.MessageSections | deepresearch/graph.py:198-213 | the message has the existing-leads block right after the criteria exactly when there is a summary; it ends with the profile block when there are profiles and with the results otherwise |
| ResearchGraph.PendingNoteExactly | deepresearch/graph.py:186-195 | a profile's line carries the pending note exactly when its status is `pending`; a missing status counts as complete |
| ResearchGraph.NotedLinesAppend | deepresearch/graph.py:183-196 | each profile contributes its own line, in order: the profile lines of a concatenation are the lines of its parts |
| ResearchGraph.UniqueLinesMembers | deepresearch/graph.py:299-305 | a line is kept exactly when it occurs in the gathered sources and is not blank |
| ResearchGraph.UniqueLinesDistinct | deepresearch/graph.py:299-305 | kept lines are non-blank and pairwise distinct |
| ResearchGraph.UniqueLinesOrder | deepresearch/graph.py:299-305 | kept lines follow the order of their first occurrences |
| ResearchGraph.DedupLines | deepresearch/graph.py:296-305 | the seen-set loops compute exactly the kept lines |
| ResearchGraph.SourcesSectionLines | deepresearch/graph.py:320-322 | the sources section splits back into exactly the kept lines, so it has no blank and no repeated line |
| ResearchGraph.FinalizeDedupIdempotent | deepresearch/graph.py:296-320 | deduplicating the sources section again changes nothing |
| ResearchGraph.FinalizeLeads | deepresearch/graph.py:291-327 | only the running summary changes, to the final list |
| ResearchGraph.FinalListHeading | deepresearch/graph.py:307-327 | the list opens with `## Lead List`, then the summary (or `No leads available.`) and the sources section; the `## LinkedIn Profiles` section follows exactly when there are profiles |
| ResearchLoop.Rounds | deepresearch/graph.py:345 | a run makes at least one search round |
| ResearchLoop.RouteResearch | deepresearch/graph.py:343-348 | another search exactly while the count, 0 when absent, is at most the maximum; the final step exactly when it exceeds it |
| ResearchLoop.Successor | deepresearch/graph.py:358-364 | the query node is entered only from the start; search follows the query node, or the reflection while the route allows; summary follows only search, reflection only summary; the final node follows only a reflection whose route refuses; the end follows only the final node |
| ResearchLoop.RouteAfterRounds | deepresearch/graph.py:343-348 | after k rounds (k at least 1), the route asks for another search exactly while k is below `max+1`, or below 1 when `max` is negative |
| ResearchLoop.RemainingFromSearch | deepresearch/graph.py:359-364 | from a search with k rounds still to make, the edges visit exactly k rounds of search, summary and reflection, and then the final step |
| ResearchLoop.StepFollowsPath | deepresearch/graph.py:359-364 | each edge consumes exactly the current node of the remaining path |
| ResearchLoop.Execute | deepresearch/graph.py:352-356 | each node is its transition: the query and reflection nodes are GenerateQuery and ReflectOnLeads over the models; the search node succeeds exactly when the search and every found URL's lookup succeed, passes a search failure on, and otherwise yields Searched over the listing, the blocks and the records in lookup order; the summary node sets the summary to the model's answer to the message; the final node sets it to the final list. Every node keeps the topic, only the search advances the count, by one, and under services that never fail (language-model exceptions aside, see below) no node fails |
| ResearchLoop.FollowsSnoc | deepresearch/graph.py:352-364 | a trace of node transitions extends by one node when that node is the edge's choice after the last one and its transition succeeds |
| ResearchLoop.Step | deepresearch/graph.py:352-364 | one node and the edge out of it: under services that never fail the step succeeds; a success extends the trace with this node's transition (Execute's `Transition`); it consumes exactly that node of the remaining path, counts a round only for the search, and keeps the topic; after a search the sources list has one element, other nodes keep it; a summary, once set, stays set |
| ResearchLoop.Visit | deepresearch/graph.py:359-364 | one iteration of a run: under services that never fail it succeeds; a failure leaves the visited nodes along the path of a successful run; a success appends the node to the path and the trace, keeps the run's progress (path so far plus path to come is the whole path, the trace starts at the initial state and ends in the current state, each node follows the edge out of its predecessor) and leaves fewer nodes to run |
| ResearchLoop.Finished | deepresearch/graph.py:359-364 | a run that reached the end node has followed the whole path with `max+1` searches (one when `max` is negative), and its state holds the final list of the state the final node received |
| ResearchLoop.Run | deepresearch/graph.py:359-364 | the run terminates; under services that never fail it succeeds; a successful run visits the query node, then `max+1` rounds of search, summary and reflection (one round when `max` is negative), then the final node; a failing run stops along that path; a successful run returns the trace of states it went through: the first is the initial state for the topic, each node's transition (Execute's `Transition` on the run's own services) takes one state to the next, `last` is the state the final node received, and the output's summary is the running summary of the final state; the output keeps the topic and its summary is the final list of `last`, which holds the topic, the count `max+1`, a running summary and a one-element sources list |

## Left out

- The language models, including their prompts, the current date and the system
  messages, are replaced by function parameters returning the reply text and its JSON
  parse. The JSON decoder itself is not modelled.
- The Tavily HTTP search is a function parameter returning hits or an error. The
  missing-API-key check and the request are not modelled.
- The Clay HTTP POST is reduced to an outcome parameter: a status and an optional body,
  or a transport failure. Environment variables are an explicit record.
- The filesystem is a snapshot: a listing and a name-to-record map. `os.makedirs`,
  `json.dump`/`json.load` and the clock are not modelled; the timestamp is a parameter.
- Profile records are maps from string to string. JSON values that are not strings are
  not modelled.
- ResearchGraph.QueryFromReply: a reply object's fields are strings, so a `query` that
  is not a string (`{"query": null}`, a number, a list) is not modelled; the program
  passes such a value on as the search query.
- ResearchLoop.Execute: the language models are total functions, so an exception raised
  by a model call (in any of the query, summary or reflection nodes, including
  `summarize_leads`) is not modelled. Only the failures listed in Errors are.
- Search hits always carry `title`, `content` and `url`. A hit missing `title` or
  `url`, which makes `format_sources` raise `KeyError`, is not modelled.
- ResearchGraph.WebResearch: takes the profile lookup as a parameter, and no member
  instantiates ResearchLoop.Services with a particular lookup. The program's own lookup,
  with its prefix test, is ProfileStore.ResolveAsWritten; ProfileStore.Resolve is the
  corrected one. Reading a file changes nothing, so a lookup is a function of the store.
- ResearchGraph.WebResearch: the model returns the extended profile list as a new
  value. That the caller's list object is extended in place, and so shared with the
  previous state, is not captured.
- The default topic `sales leads` is not modelled, because the input record requires
  the topic.
- ResearchLoop.Run: LangGraph's limit on the number of steps in one run, which would
  stop runs with large budgets, is not modelled. Neither are the rest of the
  StateGraph, compilation and LangSmith setup.
- The webhook receiver (`deepresearch/linkedin_service.py`) and its concurrency with
  the loop are not modelled. Its file naming is the same as ProfileStore.FileName.
- The CLI (`deepresearch/run.py`, `example.py`), `deepresearch/configuration.py` and
  `deepresearch/prompts.py` are not part of this model. The loop budget is a parameter.
- Logging is not modelled.
- ProfileStore.Resolve: a stored name counts as a candidate only in the exact saved
  form `{id}_{14 digits}.json`. Hand-placed files of another shape are ignored.

## Findings

| source | as written | input that shows it | evidently intended | confidence | as-written member | corrected member |
|---|---|---|---|---|---|---|
| deepresearch/utils.py:203 | cached files are those whose name starts with the profile id and ends in `.json` | looking up `https://www.linkedin.com/in/jane` when only `janet_20240101000000.json` is stored returns Janet's record | only files saved for exactly this id, `{id}_{timestamp}.json`, are candidates | high, not executed | ProfileStore.AsWrittenConfusesPrefixIds | ProfileStore.Resolve |
| deepresearch/utils.py:203-207 | the greatest name among those prefix matches is read | with `janet_20240101000000.json` and `jane_20250101000000.json` both stored, the lookup for `https://www.linkedin.com/in/jane` returns Janet's older record, because `_` sorts below `t` | the newest file saved for exactly this id is read | high, not executed | ProfileStore.JanetsOlderFileBeatsJanesNewer | ProfileStore.ResolvePicksNewest |

=== FILE: errors.dfy ===
/** The exceptions that end a research run: none of them is caught by the
    research graph. */
module Errors {

  datatype Error =
    | MissingTavilyApiKey          // the search client has no API key
    | SearchFailed(status: nat)    // the search service answered with a non-200 status
    | MissingClayWebhookUrl        // enrichment needed but the vendor endpoint is unset or empty
    | ProfileFileMissing(name: string)  // a listed profile file could not be opened
    | QueryNotSubscriptable        // the model's JSON reply is neither an object nor malformed
}

=== FILE: lex_order.dfy ===
/** Python's ordering of `str` values (code point by code point, a proper prefix
    first), which is what `sorted()` on a directory listing uses, and the
    greatest element of a non-empty listing under it (`sorted(names)[-1]`). */
module LexOrder {

  /** `a < b` on Python strings. */
  predicate Less(a: string, b: string)
  {
    if |a| == 0 then |b| > 0
    else if |b| == 0 then false
    else a[0] < b[0] || (a[0] == b[0] && Less(a[1..], b[1..]))
  }

  lemma {:induction false} LessIrreflexive(a: string)
    ensures !Less(a, a)
  {
    if |a| > 0 {
      LessIrreflexive(a[1..]);
    }
  }

  lemma {:induction false} LessTransitive(a: string, b: string, c: string)
    requires Less(a, b) && Less(b, c)
    ensures Less(a, c)
  {
    if |a| > 0 && a[0] == b[0] && b[0] == c[0] {
      LessTransitive(a[1..], b[1..], c[1..]);
    }
  }

  /** Any two different strings are ordered one way or the other. */
  lemma {:induction false} LessTotal(a: string, b: string)
    requires a != b
    ensures Less(a, b) || Less(b, a)
  {
    if |a| > 0 && |b| > 0 && a[0] == b[0] {
      assert a == [a[0]] + a[1..] && b == [b[0]] + b[1..];
      LessTotal(a[1..], b[1..]);
    }
  }

  /** A common prefix does not change the order: among names `id_<stamp>.json`
      of one id, comparing names is comparing what follows the id. */
  lemma {:induction false} LessCommonPrefix(p: string, a: string, b: string)
    ensures Less(p + a, p + b) <==> Less(a, b)
  {
    if |p| == 0 {
      assert p + a == a && p + b == b;
    } else {
      assert (p + a)[1..] == p[1..] + a;
      assert (p + b)[1..] == p[1..] + b;
      LessCommonPrefix(p[1..], a, b);
    }
  }

  /** `sorted(names)[-1]`: a member of `names` that no member exceeds. */
  function Greatest(names: seq<string>): (r: string)
    requires |names| > 0
    ensures r in names
    ensures forall x :: x in names ==> !Less(r, x)
  {
    if |names| == 1 then LessIrreflexive(names[0]); names[0]
    else
      var m := Greatest(names[..|names| - 1]);
      var last := names[|names| - 1];
      assert names == names[..|names| - 1] + [last];
      if Less(m, last) then
        assert forall x :: x in names[..|names| - 1] ==> !Less(last, x) by {
          forall x | x in names[..|names| - 1] ensures !Less(last, x) {
            if Less(last, x) { LessTransitive(m, last, x); }
          }
        }
        LessIrreflexive(last);
        last
      else
        assert !Less(m, last);
        m
  }

  /** The choice depends only on which names are listed, not on the order in
      which the directory listing returns them. */
  lemma GreatestIgnoresOrder(xs: seq<string>, ys: seq<string>)
    requires |xs| > 0
    requires forall n :: n in xs <==> n in ys
    ensures |ys| > 0 && Greatest(xs) == Greatest(ys)
  {
    var x := Greatest(xs);
    assert x in ys;
    var y := Greatest(ys);
    if x != y {
      LessTotal(x, y);
    }
  }
}

=== FILE: profile_store.dfy ===
/** The profile store and the enrichment gateway: where the webhook files a
    vendor payload (`{id}_{timestamp}.json`), how a profile URL is looked up in
    a snapshot of that directory, and the placeholder returned when nothing is
    cached and an enrichment request goes out instead. */
module ProfileStore {
  import opened Wrappers
  import opened Text
  import opened Errors
  import LexOrder
  import ProfileUrls

  /** A JSON object with string values: a vendor payload, a cached profile or
      the pending placeholder. */
  type Record = map<string, string>

  /** `s.split('/')[-1]`: the text after the last slash, or all of `s` when it
      has none. */
  function LastSegment(s: string): (r: string)
    ensures EndsWith(s, r)
    ensures forall i :: 0 <= i < |r| ==> r[i] != '/'
    ensures |r| < |s| ==> s[|s| - |r| - 1] == '/'
  {
    if |s| == 0 then ""
    else if s[|s| - 1] == '/' then ""
    else
      var r := LastSegment(s[..|s| - 1]) + [s[|s| - 1]];
      assert s[|s| - |r|..] == s[..|s| - 1][|s| - |r|..] + [s[|s| - 1]];
      r
  }

  /** The id a payload is filed under: the last segment of its `url`, or
      `unknown` when the payload has no `url` key. */
  function PayloadId(payload: Record): string
  {
    if "url" in payload then LastSegment(payload["url"]) else "unknown"
  }

  /** A `%Y%m%d%H%M%S` stamp: fourteen decimal digits. */
  predicate IsTimestamp(ts: string)
  {
    |ts| == 14 && IsDigits(ts)
  }

  /** The name `{id}_{timestamp}.json` a received payload is saved under. */
  function FileName(payload: Record, ts: string): (name: string)
    requires IsTimestamp(ts)
    ensures |name| == |PayloadId(payload)| + 20
  {
    PayloadId(payload) + "_" + ts + ".json"
  }

  /** A snapshot of the profile directory: the names the listing returns, in
      whatever order it returns them, and what each file holds. */
  datatype Store = Store(listing: seq<string>, files: map<string, Record>)

  /** Writing a payload received at time `ts` (a file written twice in the same
      second is overwritten). */
  function Save(store: Store, payload: Record, ts: string): (s: Store)
    requires IsTimestamp(ts)
    ensures FileName(payload, ts) in s.listing
    ensures s.files == store.files[FileName(payload, ts) := payload]
    ensures forall n :: n in s.listing <==> n in store.listing || n == FileName(payload, ts)
  {
    var name := FileName(payload, ts);
    Store(if name in store.listing then store.listing else store.listing + [name],
          store.files[name := payload])
  }

  /** The names of `listing` that `keep` accepts. */
  function Select(listing: seq<string>, keep: string -> bool): (r: seq<string>)
    ensures forall n :: n in r <==> n in listing && keep(n)
  {
    if |listing| == 0 then []
    else
      var init := listing[..|listing| - 1];
      var last := listing[|listing| - 1];
      assert listing == init + [last];
      Select(init, keep) + (if keep(last) then [last] else [])
  }

  /** The test as the lookup writes it: the name starts with the id and ends in `.json`. */
  predicate IsCandidateAsWritten(name: string, id: string)
  {
    StartsWith(name, id) && EndsWith(name, ".json")
  }

  /** The test the lookup evidently means: the name is `{id}_{timestamp}.json`
      for exactly this id. */
  predicate IsCandidate(name: string, id: string)
  {
    |name| == |id| + 20 && name[..|id|] == id && name[|id|] == '_'
    && IsTimestamp(name[|id| + 1..|id| + 15]) && name[|id| + 15..] == ".json"
  }

  /** The stamp part of a candidate's name. */
  function StampOf(name: string, id: string): string
    requires IsCandidate(name, id)
  {
    name[|id| + 1..|id| + 15]
  }

  /** What the gateway hands back for one profile URL. */
  datatype Resolution =
    | Cached(file: string, record: Record)          // read from the newest matching file
    | Requested(record: Record, request: VendorRequest)  // a placeholder; enrichment requested

  /** The enrichment request sent to the vendor's endpoint. */
  datatype VendorRequest = VendorRequest(endpoint: string, url: string, callbackUrl: string)

  /** The process environment the gateway reads. */
  datatype Env = Env(clayWebhookUrl: Option<string>, callbackUrl: Option<string>)

  /** How the vendor's endpoint answered: a status with a JSON object body (or
      a body that is not JSON), or a transport failure. */
  datatype VendorReply = Replied(status: nat, body: Option<Record>) | TransportFailure(message: string)

  const DefaultCallbackUrl: string := "http://localhost:8080/webhook/clay-callback"
  const PendingMessage: string := "Profile data requested from Clay. Will be available in subsequent runs."

  /** `send_linkedin_profile_to_clay`: a missing or empty endpoint raises before
      anything is sent; every failure after that is swallowed into an
      `error` record. */
  function SendToVendor(profileUrl: string, env: Env, reply: VendorReply): (r: Result<(VendorRequest, Record), Error>)
    ensures r.Err? <==> env.clayWebhookUrl.None? || env.clayWebhookUrl.value == ""
    ensures r.Err? ==> r.error == MissingClayWebhookUrl
    ensures r.Ok? ==> r.value.0 == VendorRequest(env.clayWebhookUrl.value, profileUrl,
                                                  env.callbackUrl.GetOr(DefaultCallbackUrl))
    ensures r.Ok? && !(reply.Replied? && reply.status == 200) ==> "error" in r.value.1
    ensures r.Ok? && reply.Replied? && reply.status == 200 ==>
              r.value.1 == if reply.body.Some? then reply.body.value
                           else map["status" := "success", "message" := "Request accepted by Clay"]
  {
    match env.clayWebhookUrl
    case None => Err(MissingClayWebhookUrl)
    case Some(endpoint) =>
      if endpoint == "" then Err(MissingClayWebhookUrl)
      else
        var request := VendorRequest(endpoint, profileUrl, env.callbackUrl.GetOr(DefaultCallbackUrl));
        var answer: Record := match reply
          case TransportFailure(message) => map["error" := message]
          case Replied(status, body) =>
            if status == 200 then
              (match body
               case Some(json) => json
               case None => map["status" := "success", "message" := "Request accepted by Clay"])
            else map["error" := "Request failed with status code: " + NatToString(status)];
        Ok((request, answer))
  }

  /** The placeholder returned while enrichment is outstanding. */
  function Pending(profileUrl: string): Record
  {
    map["url" := profileUrl, "status" := "pending", "message" := PendingMessage]
  }

  /** The gateway's decision once the candidate names are known: the greatest
      candidate's contents when there is one, otherwise an enrichment request
      and the placeholder, whatever the vendor answered. */
  function ResolveAmong(profileUrl: string, candidates: seq<string>, store: Store, env: Env, reply: VendorReply)
    : (r: Result<Resolution, Error>)
    ensures |candidates| > 0 ==>
              var f := LexOrder.Greatest(candidates);
              r == (if f in store.files then Ok(Cached(f, store.files[f])) else Err(ProfileFileMissing(f)))
    ensures |candidates| == 0 ==>
              (r.Err? <==> env.clayWebhookUrl.None? || env.clayWebhookUrl.value == "")
    ensures |candidates| == 0 && r.Err? ==> r.error == MissingClayWebhookUrl
    ensures |candidates| == 0 && r.Ok? ==>
              r.value.Requested? && r.value.record == Pending(profileUrl) && r.value.request.url == profileUrl
  {
    if |candidates| > 0 then
      var f := LexOrder.Greatest(candidates);
      if f in store.files then Ok(Cached(f, store.files[f])) else Err(ProfileFileMissing(f))
    else
      match SendToVendor(profileUrl, env, reply)
      case Err(e) => Err(e)
      case Ok((request, _)) => Ok(Requested(Pending(profileUrl), request))
  }

  /** `get_linkedin_profile_data` as written: candidates are the names that
      merely start with the id and end in `.json`; the greatest of them is read,
      and with none the placeholder is returned. */
  function ResolveAsWritten(profileUrl: string, store: Store, env: Env, reply: VendorReply): (r: Result<Resolution, Error>)
    ensures r.Ok? && r.value.Cached? ==>
              var id := LastSegment(profileUrl);
              r.value.file in store.listing && IsCandidateAsWritten(r.value.file, id)
              && r.value.file in store.files && r.value.record == store.files[r.value.file]
              && forall n :: n in store.listing && IsCandidateAsWritten(n, id) ==> !LexOrder.Less(r.value.file, n)
    ensures (exists n :: n in store.listing && IsCandidateAsWritten(n, LastSegment(profileUrl))) ==>
              var id := LastSegment(profileUrl);
              (r.Ok? && r.value.Cached?)
              || (r.Err? && r.error.ProfileFileMissing? && r.error.name in store.listing
                  && IsCandidateAsWritten(r.error.name, id) && r.error.name !in store.files
                  && forall n :: n in store.listing && IsCandidateAsWritten(n, id) ==> !LexOrder.Less(r.error.name, n))
    ensures (forall n :: n in store.listing ==> !IsCandidateAsWritten(n, LastSegment(profileUrl))) ==>
              (r.Err? <==> env.clayWebhookUrl.None? || env.clayWebhookUrl.value == "")
              && (r.Err? ==> r.error == MissingClayWebhookUrl)
              && (r.Ok? ==> r.value == Requested(Pending(profileUrl), r.value.request) && r.value.request.url == profileUrl)
  {
    var id := LastSegment(profileUrl);
    var candidates := Select(store.listing, n => IsCandidateAsWritten(n, id));
    assert |candidates| == 0 <==> forall n :: n in store.listing ==> !IsCandidateAsWritten(n, id) by {
      if |candidates| > 0 {
        assert candidates[0] in candidates;
      }
    }
    ResolveAmong(profileUrl, candidates, store, env, reply)
  }

  /** `get_linkedin_profile_data` with the candidate test it intends: the newest
      file saved for exactly this id, or a pending placeholder. */
  function Resolve(profileUrl: string, store: Store, env: Env, reply: VendorReply): (r: Result<Resolution, Error>)
    ensures r.Ok? && r.value.Cached? ==>
              var id := LastSegment(profileUrl);
              r.value.file in store.listing && IsCandidate(r.value.file, id)
              && r.value.file in store.files && r.value.record == store.files[r.value.file]
              && forall n :: n in store.listing && IsCandidate(n, id) ==> !LexOrder.Less(r.value.file, n)
    ensures (exists n :: n in store.listing && IsCandidate(n, LastSegment(profileUrl))) ==>
              var id := LastSegment(profileUrl);
              (r.Ok? && r.value.Cached?)
              || (r.Err? && r.error.ProfileFileMissing? && r.error.name in store.listing
                  && IsCandidate(r.error.name, id) && r.error.name !in store.files
                  && forall n :: n in store.listing && IsCandidate(n, id) ==> !LexOrder.Less(r.error.name, n))
    ensures (forall n :: n in store.listing ==> !IsCandidate(n, LastSegment(profileUrl))) ==>
              (r.Err? <==> env.clayWebhookUrl.None? || env.clayWebhookUrl.value == "")
              && (r.Err? ==> r.error == MissingClayWebhookUrl)
              && (r.Ok? ==> r.value == Requested(Pending(profileUrl), r.value.request) && r.value.request.url == profileUrl)
  {
    var id := LastSegment(profileUrl);
    var candidates := Select(store.listing, n => IsCandidate(n, id));
    assert |candidates| == 0 <==> forall n :: n in store.listing ==> !IsCandidate(n, id) by {
      if |candidates| > 0 {
        assert candidates[0] in candidates;
      }
    }
    ResolveAmong(profileUrl, candidates, store, env, reply)
  }

  // ---- properties ----

  /** Round trip, names: the file saved for a payload is a candidate for the
      payload's own id and for no other id. */
  lemma SavedNameIsCandidateExactly(payload: Record, ts: string, id: string)
    requires IsTimestamp(ts)
    ensures IsCandidate(FileName(payload, ts), id) <==> id == PayloadId(payload)
  {
    NameIsCandidateExactly(PayloadId(payload), ts, id);
  }

  lemma NameIsCandidateExactly(pid: string, ts: string, id: string)
    requires IsTimestamp(ts)
    ensures IsCandidate(pid + "_" + ts + ".json", id) <==> id == pid
  {
    var name := pid + "_" + ts + ".json";
    assert name[..|pid|] == pid;
    assert name[|pid|] == '_';
    assert name[|pid| + 1..|pid| + 15] == ts;
    assert name[|pid| + 15..] == ".json";
  }

  /** The id derived from an extracted profile URL is its identifier: the
      non-empty run after `/in/`. */
  lemma ExtractedUrlId(m: string)
    requires ProfileUrls.IsProfileUrl(m)
    ensures var id := LastSegment(m);
            id != "" && EndsWith(m, "/in/" + id)
            && forall i :: 0 <= i < |id| ==> ProfileUrls.IsIdChar(id[i])
  {
    var secure, www :| ProfileUrls.HeadThenId(m, ProfileUrls.Head(secure, www));
    var h := ProfileUrls.Head(secure, www);
    assert |h| >= 4 && h[|h| - 4..] == "/in/";
    IdAfterHead(m, h);
  }

  lemma IdAfterHead(m: string, h: string)
    requires ProfileUrls.HeadThenId(m, h)
    requires |h| >= 4 && h[|h| - 4..] == "/in/"
    ensures var id := LastSegment(m);
            id != "" && EndsWith(m, "/in/" + id)
            && forall i :: 0 <= i < |id| ==> ProfileUrls.IsIdChar(id[i])
  {
    var id := m[|h|..];
    assert forall i :: 0 <= i < |id| ==> id[i] == m[|h| + i];
    assert m[|h| - 1] == h[|h| - 1] == '/';
    IdAfterSlash(m, |h|);
    assert m[|m| - |id| - 4..] == m[|h| - 4..|h|] + id;
    assert m[|h| - 4..|h|] == h[|h| - 4..];
  }

  /** When the text after the slash at `k - 1` has no slash, it is the last segment. */
  lemma IdAfterSlash(s: string, k: nat)
    requires 0 < k <= |s| && s[k - 1] == '/'
    requires forall i :: k <= i < |s| ==> s[i] != '/'
    ensures LastSegment(s) == s[k..]
    decreases |s| - k
  {
    if k < |s| {
      var init := s[..|s| - 1];
      IdAfterSlash(init, k);
      assert init[k..] + [s[|s| - 1]] == s[k..];
    }
  }

  /** Round trip, lookup, last write wins: once a payload is saved at a time
      no earlier than every file already filed for its id, looking up its URL
      returns that payload from that file (the first save for a profile is the
      case with no earlier file; a save within the same second overwrites). */
  lemma SaveThenResolve(store: Store, payload: Record, ts: string, env: Env, reply: VendorReply)
    requires IsTimestamp(ts) && "url" in payload
    requires forall n :: n in store.listing && IsCandidate(n, PayloadId(payload)) ==>
               !LexOrder.Less(ts, StampOf(n, PayloadId(payload)))
    ensures Resolve(payload["url"], Save(store, payload, ts), env, reply)
            == Ok(Cached(FileName(payload, ts), payload))
  {
    var id := PayloadId(payload);
    var name := FileName(payload, ts);
    var s := Save(store, payload, ts);
    SavedNameIsCandidateExactly(payload, ts, id);
    assert StampOf(name, id) == ts;
    var candidates := Select(s.listing, n => IsCandidate(n, id));
    assert name in candidates;
    var f := LexOrder.Greatest(candidates);
    if f != name {
      assert f in store.listing && IsCandidate(f, id);
      LexOrder.LessTotal(f, name);
      CandidateOrderIsStampOrder(name, f, id);
      assert false;
    }
  }

  /** Between two names filed for one id, the name order is the stamp order:
      the newest file is the one the lookup picks. */
  lemma CandidateOrderIsStampOrder(a: string, b: string, id: string)
    requires IsCandidate(a, id) && IsCandidate(b, id)
    ensures LexOrder.Less(a, b) <==> LexOrder.Less(StampOf(a, id), StampOf(b, id))
  {
    var p := id + "_";
    assert a == p + (StampOf(a, id) + ".json");
    assert b == p + (StampOf(b, id) + ".json");
    LexOrder.LessCommonPrefix(p, StampOf(a, id) + ".json", StampOf(b, id) + ".json");
    SameLengthHeads(StampOf(a, id), StampOf(b, id), ".json");
  }

  /** Equal-length heads decide the order before a common tail does. */
  lemma SameLengthHeads(x: string, y: string, tail: string)
    requires |x| == |y|
    ensures LexOrder.Less(x + tail, y + tail) <==> LexOrder.Less(x, y)
  {
    if x == y {
      LexOrder.LessIrreflexive(x + tail);
      LexOrder.LessIrreflexive(x);
    } else if x[0] == y[0] {
      assert (x + tail)[1..] == x[1..] + tail;
      assert (y + tail)[1..] == y[1..] + tail;
      SameLengthHeads(x[1..], y[1..], tail);
    }
  }

  /** The cached record comes from a file whose stamp no other file of the
      same id exceeds. */
  lemma ResolvePicksNewest(profileUrl: string, store: Store, env: Env, reply: VendorReply, n: string)
    requires n in store.listing && IsCandidate(n, LastSegment(profileUrl))
    ensures var r := Resolve(profileUrl, store, env, reply);
            var id := LastSegment(profileUrl);
            r.Ok? && r.value.Cached? ==> !LexOrder.Less(StampOf(r.value.file, id), StampOf(n, id))
  {
    var r := Resolve(profileUrl, store, env, reply);
    if r.Ok? && r.value.Cached? {
      CandidateOrderIsStampOrder(r.value.file, n, LastSegment(profileUrl));
    }
  }

  /** The lookup depends on which names are in the directory, not on the order
      the listing returns them in: repeated reads of an unchanged store agree. */
  lemma ResolveIgnoresListingOrder(profileUrl: string, s1: Store, s2: Store, env: Env, reply: VendorReply)
    requires s1.files == s2.files
    requires forall n :: n in s1.listing <==> n in s2.listing
    ensures Resolve(profileUrl, s1, env, reply) == Resolve(profileUrl, s2, env, reply)
  {
    var id := LastSegment(profileUrl);
    var c1 := Select(s1.listing, n => IsCandidate(n, id));
    var c2 := Select(s2.listing, n => IsCandidate(n, id));
    if |c1| > 0 {
      LexOrder.GreatestIgnoresOrder(c1, c2);
    }
  }

  /** The as-written test admits every name the intended test admits: a file
      saved for the id is always found, possibly with others. */
  lemma CandidateIsCandidateAsWritten(name: string, id: string)
    requires IsCandidate(name, id)
    ensures IsCandidateAsWritten(name, id)
  {
    assert name[|name| - 5..] == name[|id| + 15..];
  }

  /** As written, too, the lookup depends only on which names are listed:
      repeated reads of an unchanged store agree. */
  lemma ResolveAsWrittenIgnoresListingOrder(profileUrl: string, s1: Store, s2: Store, env: Env, reply: VendorReply)
    requires s1.files == s2.files
    requires forall n :: n in s1.listing <==> n in s2.listing
    ensures ResolveAsWritten(profileUrl, s1, env, reply) == ResolveAsWritten(profileUrl, s2, env, reply)
  {
    var id := LastSegment(profileUrl);
    var c1 := Select(s1.listing, n => IsCandidateAsWritten(n, id));
    var c2 := Select(s2.listing, n => IsCandidateAsWritten(n, id));
    if |c1| > 0 {
      LexOrder.GreatestIgnoresOrder(c1, c2);
    }
  }

  /** As written, the prefix test lets the file of another profile through:
      when the store holds only a file of a profile whose id merely starts with
      the looked-up id (Janet's `janet_...json` for `.../in/jane`), the lookup
      returns that other profile's record, where the intended test finds no
      candidate and requests enrichment. */
  lemma AsWrittenConfusesPrefixIds(profileUrl: string, other: string, ts: string, record: Record,
                                   env: Env, reply: VendorReply)
    requires IsTimestamp(ts)
    requires StartsWith(other, LastSegment(profileUrl)) && other != LastSegment(profileUrl)
    requires env.clayWebhookUrl.Some? && env.clayWebhookUrl.value != ""
    ensures var name := other + "_" + ts + ".json";
            var store := Store([name], map[name := record]);
            ResolveAsWritten(profileUrl, store, env, reply) == Ok(Cached(name, record))
            && Resolve(profileUrl, store, env, reply).Ok?
            && Resolve(profileUrl, store, env, reply).value.Requested?
  {
    var id := LastSegment(profileUrl);
    var name := other + "_" + ts + ".json";
    assert name[..|id|] == other[..|id|] == id;
    assert name[|name| - 5..] == ".json";
    assert IsCandidateAsWritten(name, id);
    NameIsCandidateExactly(other, ts, id);
    SelectSingle(name, n => IsCandidateAsWritten(n, id));
    SelectSingle(name, n => IsCandidate(n, id));
    assert LexOrder.Greatest([name]) == name;
  }

  lemma SelectSingle(name: string, keep: string -> bool)
    ensures Select([name], keep) == if keep(name) then [name] else []
  {
    assert [name][..0] == [];
  }

  /** The instance: Jane's URL and Janet's file. */
  lemma JaneGetsJanetsFile(record: Record, env: Env, reply: VendorReply)
    requires env.clayWebhookUrl.Some? && env.clayWebhookUrl.value != ""
    ensures var url := "https://www.linkedin.com/in/jane";
            var name := "janet_20240101000000.json";
            var store := Store([name], map[name := record]);
            && ResolveAsWritten(url, store, env, reply) == Ok(Cached(name, record))
            && Resolve(url, store, env, reply).Ok?
            && Resolve(url, store, env, reply).value.Requested?
  {
    var url, other, ts := JanesUrlJanetsFile();
    AsWrittenConfusesPrefixIds(url, other, ts, record, env, reply);
  }

  /** The pieces of the instance: the id of Jane's URL is a proper prefix of
      Janet's id, and Janet's file carries a well-formed stamp. */
  lemma JanesUrlJanetsFile() returns (url: string, other: string, ts: string)
    ensures url == "https://www.linkedin.com/in/jane"
    ensures other + "_" + ts + ".json" == "janet_20240101000000.json"
    ensures IsTimestamp(ts)
    ensures StartsWith(other, LastSegment(url)) && other != LastSegment(url)
    ensures LastSegment(url) == "jane" && other == "janet"
  {
    url, other, ts := "https://www.linkedin.com/in/jane", "janet", "20240101000000";
    assert other + "_" + ts + ".json" == "janet_20240101000000.json";
    IdAfterSlash(url, 28);
    assert LastSegment(url) == "jane";
    assert StartsWith(other, "jane");
  }

  /** As written, a longer id that continues the looked-up id with a character
      above `_` wins even against the profile's own file, whatever the stamps:
      Janet's file is read for Jane however recent Jane's own file is, where
      the intended test reads Jane's. */
  lemma AsWrittenPrefersLongerId(profileUrl: string, other: string, otherTs: string, ownTs: string,
                                 otherRecord: Record, ownRecord: Record, env: Env, reply: VendorReply)
    requires IsTimestamp(otherTs) && IsTimestamp(ownTs)
    requires StartsWith(other, LastSegment(profileUrl)) && |other| > |LastSegment(profileUrl)|
    requires '_' < other[|LastSegment(profileUrl)|]
    ensures var id := LastSegment(profileUrl);
            var otherName := other + "_" + otherTs + ".json";
            var ownName := id + "_" + ownTs + ".json";
            var store := Store([otherName, ownName], map[otherName := otherRecord, ownName := ownRecord]);
            ResolveAsWritten(profileUrl, store, env, reply) == Ok(Cached(otherName, otherRecord))
            && Resolve(profileUrl, store, env, reply) == Ok(Cached(ownName, ownRecord))
  {
    var id := LastSegment(profileUrl);
    var otherName := other + "_" + otherTs + ".json";
    var ownName := id + "_" + ownTs + ".json";
    OwnNameSortsFirst(id, other, otherTs, ownTs);
    LexOrder.LessIrreflexive(ownName);
    TwoNamesAsWritten(profileUrl, otherName, ownName, otherRecord, ownRecord, env, reply);
    TwoNamesIntended(profileUrl, otherName, ownName, otherRecord, ownRecord, env, reply);
  }

  /** A store of two files for the looked-up URL, both admitted by the prefix
      test: the lookup as written reads the greater. */
  lemma TwoNamesAsWritten(profileUrl: string, a: string, b: string, ra: Record, rb: Record,
                          env: Env, reply: VendorReply)
    requires IsCandidateAsWritten(a, LastSegment(profileUrl)) && IsCandidateAsWritten(b, LastSegment(profileUrl))
    requires LexOrder.Less(b, a)
    ensures ResolveAsWritten(profileUrl, Store([a, b], map[a := ra, b := rb]), env, reply) == Ok(Cached(a, ra))
  {
    LexOrder.LessIrreflexive(a);
    var id := LastSegment(profileUrl);
    var store := Store([a, b], map[a := ra, b := rb]);
    var candidates := Select(store.listing, n => IsCandidateAsWritten(n, id));
    assert a in candidates;
    var f := LexOrder.Greatest(candidates);
    assert f == a;
    assert store.files[a] == ra;
  }

  /** The same store where the exact test admits only the smaller name: the
      intended lookup reads that one. */
  lemma TwoNamesIntended(profileUrl: string, a: string, b: string, ra: Record, rb: Record,
                         env: Env, reply: VendorReply)
    requires IsCandidate(b, LastSegment(profileUrl)) && !IsCandidate(a, LastSegment(profileUrl))
    requires a != b
    ensures Resolve(profileUrl, Store([a, b], map[a := ra, b := rb]), env, reply) == Ok(Cached(b, rb))
  {
    var id := LastSegment(profileUrl);
    var store := Store([a, b], map[a := ra, b := rb]);
    var candidates := Select(store.listing, n => IsCandidate(n, id));
    assert b in candidates;
    var f := LexOrder.Greatest(candidates);
    assert f == b;
    assert store.files[b] == rb;
  }

  /** Both names pass the prefix test, only the own one the exact test, and
      the own one sorts first: after the common id, `_` meets a higher character. */
  lemma OwnNameSortsFirst(id: string, other: string, otherTs: string, ownTs: string)
    requires IsTimestamp(otherTs) && IsTimestamp(ownTs)
    requires StartsWith(other, id) && |other| > |id| && '_' < other[|id|]
    ensures var otherName := other + "_" + otherTs + ".json";
            var ownName := id + "_" + ownTs + ".json";
            && IsCandidateAsWritten(otherName, id) && IsCandidateAsWritten(ownName, id)
            && IsCandidate(ownName, id) && !IsCandidate(otherName, id)
            && LexOrder.Less(ownName, otherName)
  {
    var otherName := other + "_" + otherTs + ".json";
    var ownName := id + "_" + ownTs + ".json";
    assert otherName[..|id|] == other[..|id|] == id;
    assert otherName[|otherName| - 5..] == ".json";
    NameIsCandidateExactly(id, ownTs, id);
    CandidateIsCandidateAsWritten(ownName, id);
    NameIsCandidateExactly(other, otherTs, id);
    var otherRest := otherName[|id|..];
    var ownRest := ownName[|id|..];
    assert otherName == id + otherRest && ownName == id + ownRest;
    assert ownRest[0] == '_' && otherRest[0] == other[|id|];
    LexOrder.LessCommonPrefix(id, ownRest, otherRest);
  }

  /** The instance: Jane's own file of 2025 loses to Janet's of 2024. */
  lemma JanetsOlderFileBeatsJanesNewer(janetRecord: Record, janeRecord: Record, env: Env, reply: VendorReply)
    ensures var url := "https://www.linkedin.com/in/jane";
            var janet := "janet_20240101000000.json";
            var jane := "jane_20250101000000.json";
            var store := Store([janet, jane], map[janet := janetRecord, jane := janeRecord]);
            && ResolveAsWritten(url, store, env, reply) == Ok(Cached(janet, janetRecord))
            && Resolve(url, store, env, reply) == Ok(Cached(jane, janeRecord))
  {
    var url, other, ts := JanesUrlJanetsFile();
    var ownTs := JanesOwnStamp();
    assert '_' < other[|LastSegment(url)|];
    AsWrittenPrefersLongerId(url, other, ts, ownTs, janetRecord, janeRecord, env, reply);
  }

  /** Jane's own stamp, a year after Janet's. */
  lemma JanesOwnStamp() returns (ownTs: string)
    ensures IsTimestamp(ownTs)
    ensures "jane" + "_" + ownTs + ".json" == "jane_20250101000000.json"
  {
    ownTs := "20250101000000";
    assert "jane" + "_" + ownTs + ".json" == "jane_20250101000000.json";
  }
}

=== FILE: profile_urls.dfy ===
/** The profile-reference extractor: `re.findall` of the fixed pattern
    `https?://(?:www\.)?linkedin\.com/in/[a-zA-Z0-9_-]+` over a text, written
    out as a scanner with the leftmost, greedy, non-overlapping semantics of
    `findall`. */
module ProfileUrls {

  predicate IsIdChar(c: char)
  {
    ('a' <= c <= 'z') || ('A' <= c <= 'Z') || ('0' <= c <= '9') || c == '_' || c == '-'
  }

  /** The four literal heads the pattern admits before the identifier. */
  function Head(secure: bool, www: bool): string
  {
    if secure && www then "https://www.linkedin.com/in/"
    else if secure then "https://linkedin.com/in/"
    else if www then "http://www.linkedin.com/in/"
    else "http://linkedin.com/in/"
  }

  /** `m` is `head` followed by a non-empty run of identifier characters. */
  predicate HeadThenId(m: string, head: string)
  {
    |head| < |m| && m[..|head|] == head && forall i :: |head| <= i < |m| ==> IsIdChar(m[i])
  }

  /** `m` is a whole-string match of the pattern. */
  predicate IsProfileUrl(m: string)
  {
    HeadThenId(m, Head(true, true)) || HeadThenId(m, Head(true, false))
    || HeadThenId(m, Head(false, true)) || HeadThenId(m, Head(false, false))
  }

  /** `t[p..e]` is `Head(secure, www)` followed by a maximal non-empty
      identifier run. */
  predicate MatchesVia(t: string, p: nat, e: nat, secure: bool, www: bool)
  {
    p + |Head(secure, www)| < e <= |t| && At(t, p, Head(secure, www))
    && (forall j :: p + |Head(secure, www)| <= j < e ==> IsIdChar(t[j]))
    && (e == |t| || !IsIdChar(t[e]))
  }

  /** The pattern matches `t[p..e]`, with the `+` taken greedily. */
  predicate IsMatchAt(t: string, p: nat, e: nat)
  {
    MatchesVia(t, p, e, true, true) || MatchesVia(t, p, e, true, false)
    || MatchesVia(t, p, e, false, true) || MatchesVia(t, p, e, false, false)
  }

  /** A match ends within the text, after its start. */
  lemma MatchWithin(t: string, p: nat, e: nat)
    requires IsMatchAt(t, p, e)
    ensures p < e <= |t|
  {
  }

  /** A match, taken on its own, is a profile URL. */
  lemma MatchIsProfileUrl(t: string, p: nat, e: nat)
    requires IsMatchAt(t, p, e)
    ensures p < e <= |t| && IsProfileUrl(t[p..e])
  {
    var secure, www :| MatchesVia(t, p, e, secure, www);
    assert MatchesVia(t, p, e, secure, www);
    var h := Head(secure, www);
    assert p + |h| < e;
    assert e <= |t|;
    assert At(t, p, h);
    var m := t[p..e];
    assert m[..|h|] == t[p..p + |h|];
    assert forall i :: |h| <= i < |m| ==> m[i] == t[p + i];
    assert HeadThenId(m, h);
  }

  /** `w` occurs in `t` at position `p`. */
  predicate At(t: string, p: nat, w: string)
  {
    p + |w| <= |t| && t[p..p + |w|] == w
  }

  /** Length of the longest run of identifier characters starting at `p`. */
  function IdRun(t: string, p: nat): (n: nat)
    requires p <= |t|
    ensures p + n <= |t|
    ensures forall j :: p <= j < p + n ==> IsIdChar(t[j])
    ensures p + n == |t| || !IsIdChar(t[p + n])
    decreases |t| - p
  {
    if p < |t| && IsIdChar(t[p]) then 1 + IdRun(t, p + 1) else 0
  }

  /** One alternative of the pattern at `p`: the literal head, then a maximal
      non-empty identifier; its length, or 0 when it fails. */
  function TryHead(t: string, p: nat, secure: bool, www: bool): (n: nat)
    requires p <= |t|
    ensures n > 0 ==> MatchesVia(t, p, p + n, secure, www)
  {
    var head := Head(secure, www);
    if !At(t, p, head) then 0
    else
      var run := IdRun(t, p + |head|);
      if run == 0 then 0 else |head| + run
  }

  /** Length of the match starting at `p`, or 0 when the pattern does not match
      there. The alternatives are tried in the order the regex engine
      backtracks through them: `s?` first with the `s`, then `(?:www\.)?`
      first with `www.`. */
  function MatchLen(t: string, p: nat): nat
    requires p <= |t|
  {
    var a := TryHead(t, p, true, true);
    if a > 0 then a
    else
      var b := TryHead(t, p, true, false);
      if b > 0 then b
      else
        var c := TryHead(t, p, false, true);
        if c > 0 then c
        else TryHead(t, p, false, false)
  }

  /** Soundness: a non-zero length is a match of the pattern at `p`. */
  lemma MatchLenSound(t: string, p: nat, n: nat)
    requires p <= |t| && n == MatchLen(t, p) && n > 0
    ensures IsMatchAt(t, p, p + n)
  {
    var secure, www := MatchingHead(t, p);
    ViaIsMatch(t, p, p + n, secure, www);
  }

  /** The alternative whose length `MatchLen` reports. */
  lemma MatchingHead(t: string, p: nat) returns (secure: bool, www: bool)
    requires p <= |t| && MatchLen(t, p) > 0
    ensures TryHead(t, p, secure, www) == MatchLen(t, p)
  {
    if TryHead(t, p, true, true) > 0 {
      secure, www := true, true;
    } else if TryHead(t, p, true, false) > 0 {
      secure, www := true, false;
    } else if TryHead(t, p, false, true) > 0 {
      secure, www := false, true;
    } else {
      secure, www := false, false;
    }
  }

  /** Each alternative's match is a match of the pattern. */
  lemma ViaIsMatch(t: string, p: nat, e: nat, secure: bool, www: bool)
    requires MatchesVia(t, p, e, secure, www)
    ensures IsMatchAt(t, p, e)
  {
  }

  /** Two occurrences at the same place agree wherever both are defined. */
  lemma SamePlace(t: string, p: nat, h1: string, h2: string, i: nat)
    requires At(t, p, h1) && At(t, p, h2)
    requires i < |h1| && i < |h2|
    ensures h1[i] == h2[i]
  {
    assert h1[i] == t[p..p + |h1|][i] == t[p + i];
    assert h2[i] == t[p..p + |h2|][i] == t[p + i];
  }

  /** At most one of the four heads occurs at any position. */
  lemma HeadsExclusive(t: string, p: nat, s1: bool, w1: bool, s2: bool, w2: bool)
    requires At(t, p, Head(s1, w1)) && At(t, p, Head(s2, w2))
    ensures s1 == s2 && w1 == w2
  {
    var h1, h2 := Head(s1, w1), Head(s2, w2);
    if s1 != s2 {
      SamePlace(t, p, h1, h2, 4);
      assert false;
    } else if w1 != w2 {
      var i := if s1 then 8 else 7;
      SamePlace(t, p, h1, h2, i);
      assert false;
    }
  }

  /** The identifier run is determined by where it ends. */
  lemma IdRunExact(t: string, p: nat, e: nat)
    requires p <= e <= |t|
    requires forall j :: p <= j < e ==> IsIdChar(t[j])
    requires e == |t| || !IsIdChar(t[e])
    ensures IdRun(t, p) == e - p
    decreases e - p
  {
    if p < e {
      IdRunExact(t, p + 1, e);
    }
  }

  /** The alternative that matches reports the match's length. */
  lemma TryHeadExact(t: string, p: nat, e: nat, secure: bool, www: bool)
    requires MatchesVia(t, p, e, secure, www)
    ensures TryHead(t, p, secure, www) == e - p
  {
    IdRunExact(t, p + |Head(secure, www)|, e);
  }

  /** Completeness: wherever the pattern matches, the scanner finds that same match. */
  lemma MatchLenComplete(t: string, p: nat, e: nat)
    requires IsMatchAt(t, p, e)
    ensures MatchLen(t, p) == e - p
  {
    var secure, www :| MatchesVia(t, p, e, secure, www);
    TryHeadExact(t, p, e, secure, www);
    if TryHead(t, p, true, true) > 0 {
      HeadsExclusive(t, p, true, true, secure, www);
    } else if TryHead(t, p, true, false) > 0 {
      HeadsExclusive(t, p, true, false, secure, www);
    } else if TryHead(t, p, false, true) > 0 {
      HeadsExclusive(t, p, false, true, secure, www);
    }
  }

  /** Every span lies at or after `p` and is a match. */
  predicate AllMatches(t: string, p: nat, spans: seq<(nat, nat)>)
  {
    forall k :: 0 <= k < |spans| ==> p <= spans[k].0 && IsMatchAt(t, spans[k].0, spans[k].1)
  }

  /** Each span ends before the next one starts. */
  predicate Ordered(spans: seq<(nat, nat)>)
  {
    forall k :: 0 <= k < |spans| - 1 ==> spans[k].1 <= spans[k + 1].0
  }

  predicate Covered(spans: seq<(nat, nat)>, q: nat)
  {
    exists k :: 0 <= k < |spans| && spans[k].0 <= q < spans[k].1
  }

  /** Every position from `p` on where the pattern matches lies inside a span:
      a match is skipped only when it overlaps one already taken. */
  predicate CoversMatches(t: string, p: nat, spans: seq<(nat, nat)>)
  {
    forall q :: p <= q < |t| && MatchLen(t, q) > 0 ==> Covered(spans, q)
  }

  lemma TakeMatch(t: string, p: nat, n: nat, rest: seq<(nat, nat)>)
    requires IsMatchAt(t, p, p + n)
    requires AllMatches(t, p + n, rest) && Ordered(rest) && CoversMatches(t, p + n, rest)
    ensures var spans := [(p, p + n)] + rest;
            AllMatches(t, p, spans) && Ordered(spans) && CoversMatches(t, p, spans)
  {
    TakeMatchAll(t, p, n, rest);
    TakeMatchOrdered(t, p, n, rest);
    TakeMatchCovers(t, p, n, rest);
  }

  lemma TakeMatchAll(t: string, p: nat, n: nat, rest: seq<(nat, nat)>)
    requires IsMatchAt(t, p, p + n)
    requires AllMatches(t, p + n, rest)
    ensures AllMatches(t, p, [(p, p + n)] + rest)
  {
    var spans := [(p, p + n)] + rest;
    forall k | 0 <= k < |spans| ensures p <= spans[k].0 && IsMatchAt(t, spans[k].0, spans[k].1) {
      if k > 0 {
        assert spans[k] == rest[k - 1];
      }
    }
  }

  lemma TakeMatchOrdered(t: string, p: nat, n: nat, rest: seq<(nat, nat)>)
    requires AllMatches(t, p + n, rest)
    requires Ordered(rest)
    ensures Ordered([(p, p + n)] + rest)
  {
    var spans := [(p, p + n)] + rest;
    forall k | 0 <= k < |spans| - 1 ensures spans[k].1 <= spans[k + 1].0 {
      assert spans[k + 1] == rest[k];
      if k > 0 {
        assert spans[k] == rest[k - 1];
      }
    }
  }

  lemma TakeMatchCovers(t: string, p: nat, n: nat, rest: seq<(nat, nat)>)
    requires IsMatchAt(t, p, p + n)
    requires CoversMatches(t, p + n, rest)
    ensures CoversMatches(t, p, [(p, p + n)] + rest)
  {
    MatchWithin(t, p, p + n);
    var spans := [(p, p + n)] + rest;
    forall q | p <= q < |t| && MatchLen(t, q) > 0 ensures Covered(spans, q) {
      if q < p + n {
        assert spans[0].0 <= q < spans[0].1;
      } else {
        assert Covered(rest, q);
        var k :| 0 <= k < |rest| && rest[k].0 <= q < rest[k].1;
        assert spans[k + 1] == rest[k];
      }
    }
  }

  lemma SkipPosition(t: string, p: nat, rest: seq<(nat, nat)>)
    requires p < |t| && MatchLen(t, p) == 0
    requires AllMatches(t, p + 1, rest) && CoversMatches(t, p + 1, rest)
    ensures AllMatches(t, p, rest) && CoversMatches(t, p, rest)
  {
  }

  /** The spans `findall` reports when it starts scanning at `p`: a match at the
      scan position is taken whole and the scan resumes after it; otherwise
      the scan advances by one. */
  function FindSpans(t: string, p: nat): (spans: seq<(nat, nat)>)
    requires p <= |t|
    ensures AllMatches(t, p, spans) && Ordered(spans) && CoversMatches(t, p, spans)
    decreases |t| - p
  {
    if p == |t| then []
    else
      var n := MatchLen(t, p);
      if n > 0 then
        MatchLenSound(t, p, n);
        var rest := FindSpans(t, p + n);
        TakeMatch(t, p, n, rest);
        [(p, p + n)] + rest
      else
        var rest := FindSpans(t, p + 1);
        SkipPosition(t, p, rest);
        rest
  }

  /** `extract_linkedin_urls(text)`: the matched substrings, left to right,
      duplicates kept. */
  function ExtractUrls(t: string): (urls: seq<string>)
    ensures forall k :: 0 <= k < |urls| ==> IsProfileUrl(urls[k])
  {
    var spans := FindSpans(t, 0);
    forall k | 0 <= k < |spans| ensures IsProfileUrl(t[spans[k].0..spans[k].1]) {
      MatchIsProfileUrl(t, spans[k].0, spans[k].1);
    }
    seq(|spans|, k requires 0 <= k < |spans| => t[spans[k].0..spans[k].1])
  }

  /** No match anywhere in the text exactly when the result is empty. */
  lemma ExtractUrlsEmpty(t: string)
    ensures ExtractUrls(t) == [] <==> forall q :: 0 <= q < |t| ==> MatchLen(t, q) == 0
  {
    var spans := FindSpans(t, 0);
    if spans != [] {
      assert MatchLen(t, spans[0].0) > 0 by {
        MatchLenComplete(t, spans[0].0, spans[0].1);
      }
    }
  }
}

=== FILE: research_graph.dfy ===
/** The nodes of the lead-research graph as transitions on the state record.
    Each node receives the whole state and yields the whole next state; the
    keys a node does not return keep their values, and a list a node returns
    replaces the old one (the state declares no reducer). */
module ResearchGraph {
  import opened Wrappers
  import opened Text
  import opened Errors
  import opened Sources
  import ProfileUrls
  import opened ProfileStore

  /** `SummaryState`. The topic comes from the input record, which requires it;
      every other key is absent until a node first writes it. */
  datatype State = State(
    topic: string,
    searchQuery: Option<string>,
    runningSummary: Option<string>,
    loopCount: Option<int>,
    webResearchResults: Option<seq<string>>,
    sourcesGathered: Option<seq<string>>,
    profiles: Option<seq<Record>>)

  /** The state a run starts from: only the topic is present. */
  function Initial(topic: string): State
  {
    State(topic, None, None, None, None, None, None)
  }

  /** What `json.loads` made of a model reply. */
  datatype Parsed = Invalid | Object(fields: map<string, string>) | OtherJson

  /** A reply of a JSON-mode model: its text and how that text parsed. */
  datatype Reply = Reply(content: string, parsed: Parsed)

  /** The query-extraction shared by `generate_query` and `reflect_on_leads`:
      the `query` field of a JSON object; the raw text when the text is not
      JSON or the object has no `query`; and a TypeError, which nothing
      catches, for any other JSON value. */
  function QueryFromReply(reply: Reply): (r: Result<string, Error>)
    ensures r.Err? <==> reply.parsed.OtherJson?
    ensures r.Err? ==> r.error == QueryNotSubscriptable
    ensures reply.parsed.Invalid? ==> r == Ok(reply.content)
    ensures reply.parsed.Object? ==>
              r == Ok(if "query" in reply.parsed.fields then reply.parsed.fields["query"] else reply.content)
    ensures r.Ok? && r.value != reply.content ==>
              reply.parsed.Object? && "query" in reply.parsed.fields && r.value == reply.parsed.fields["query"]
  {
    match reply.parsed
    case Invalid => Ok(reply.content)
    case OtherJson => Err(QueryNotSubscriptable)
    case Object(fields) => if "query" in fields then Ok(fields["query"]) else Ok(reply.content)
  }

  /** `generate_query`: the query writer sees the topic; only `search_query` changes. */
  function GenerateQuery(state: State, writeQuery: string -> Reply): (r: Result<State, Error>)
    ensures r.Ok? <==> QueryFromReply(writeQuery(state.topic)).Ok?
    ensures r.Ok? ==> r.value == state.(searchQuery := Some(QueryFromReply(writeQuery(state.topic)).value))
  {
    match QueryFromReply(writeQuery(state.topic))
    case Err(e) => Err(e)
    case Ok(q) => Ok(state.(searchQuery := Some(q)))
  }

  const NoLeadsYet: string := "No leads available yet."

  /** `reflect_on_leads`: the reflection model sees the topic and the current
      summary (a placeholder when there is none); only `search_query` changes. */
  function ReflectOnLeads(state: State, reflect: (string, string) -> Reply): (r: Result<State, Error>)
    ensures var reply := reflect(state.topic, state.runningSummary.GetOr(NoLeadsYet));
            (r.Ok? <==> QueryFromReply(reply).Ok?)
            && (r.Ok? ==> r.value == state.(searchQuery := Some(QueryFromReply(reply).value)))
  {
    match QueryFromReply(reflect(state.topic, state.runningSummary.GetOr(NoLeadsYet)))
    case Err(e) => Err(e)
    case Ok(q) => Ok(state.(searchQuery := Some(q)))
  }

  // ---- web_research ----

  const MaxResults: nat := 5
  const MaxTokensPerSource: int := 1000

  /** The query `web_research` searches for: the state's query, or
      `leads for {topic}` when it is absent or empty. */
  function EffectiveQuery(state: State): (q: string)
    ensures q != ""
  {
    if state.searchQuery.None? || state.searchQuery.value == "" then "leads for " + state.topic
    else state.searchQuery.value
  }

  /** The profile URLs found in the hits, content before title, hit by hit. */
  function CollectedUrls(results: seq<Source>): seq<string>
  {
    if |results| == 0 then []
    else
      var last := results[|results| - 1];
      CollectedUrls(results[..|results| - 1])
        + (ProfileUrls.ExtractUrls(last.content) + ProfileUrls.ExtractUrls(last.title))
  }

  /** The distinct profile URLs of the hits (`list(set(...))`). */
  function UrlSet(results: seq<Source>): set<string>
  {
    Elements(CollectedUrls(results))
  }

  function Elements(urls: seq<string>): set<string>
  {
    set u | u in urls
  }

  /** Every collected URL is a profile URL. */
  lemma {:induction false} CollectedUrlsAreProfileUrls(results: seq<Source>)
    ensures forall u :: u in UrlSet(results) ==> ProfileUrls.IsProfileUrl(u)
  {
    if |results| > 0 {
      CollectedUrlsAreProfileUrls(results[..|results| - 1]);
      var last := results[|results| - 1];
      var c, t := ProfileUrls.ExtractUrls(last.content), ProfileUrls.ExtractUrls(last.title);
      forall u | u in UrlSet(results) ensures ProfileUrls.IsProfileUrl(u) {
        if u in c + t {
          if u in c {
            var k :| 0 <= k < |c| && c[k] == u;
          } else {
            var k :| 0 <= k < |t| && t[k] == u;
          }
        } else {
          assert u in UrlSet(results[..|results| - 1]);
        }
      }
    }
  }

  predicate AllResolved(urls: seq<string>, resolve: string -> Result<Record, Error>)
  {
    forall k :: 0 <= k < |urls| ==> resolve(urls[k]).Ok?
  }

  /** The records the gateway returns for `urls`, in that order. */
  function Resolved(urls: seq<string>, resolve: string -> Result<Record, Error>): (r: seq<Record>)
    requires AllResolved(urls, resolve)
    ensures |r| == |urls|
    ensures forall k :: 0 <= k < |urls| ==> r[k] == resolve(urls[k]).value
  {
    if |urls| == 0 then []
    else Resolved(urls[..|urls| - 1], resolve) + [resolve(urls[|urls| - 1]).value]
  }

  predicate Distinct(urls: seq<string>)
  {
    forall j, k :: 0 <= j < k < |urls| ==> urls[j] != urls[k]
  }

  /** `order` lists every member of `urls` exactly once. */
  ghost predicate Enumerates(order: seq<string>, urls: set<string>)
  {
    Distinct(order) && (forall u :: u in order <==> u in urls) && |order| == |urls|
  }

  /** The numbered listing stored in `sources_gathered`. */
  function ListingText(results: seq<Source>): string
  {
    Join(ListLines(results), "\n")
  }

  /** The deduplicated blocks stored in `web_research_results`. */
  function ContextText(results: seq<Source>): string
  {
    Join(Blocks(Retained(results), MaxTokensPerSource), "\n\n")
  }

  /** The URL-collection loop of `web_research`. */
  method CollectUrls(results: seq<Source>) returns (urls: seq<string>)
    ensures urls == CollectedUrls(results)
  {
    urls := [];
    var i := 0;
    while i < |results|
      invariant 0 <= i <= |results|
      invariant urls == CollectedUrls(results[..i])
    {
      assert results[..i + 1][..i] == results[..i];
      urls := urls + (ProfileUrls.ExtractUrls(results[i].content) + ProfileUrls.ExtractUrls(results[i].title));
      i := i + 1;
    }
    assert results[..i] == results;
  }

  /** The state after a successful search: the loop count goes up by one,
      the listing and the blocks of this search replace the previous ones, and
      the new records follow the prior profiles. */
  function Searched(state: State, listing: string, context: string, added: seq<Record>): State
  {
    state.(sourcesGathered := Some([listing]),
           loopCount := Some(state.loopCount.GetOr(0) + 1),
           webResearchResults := Some([context]),
           profiles := Some(state.profiles.GetOr([]) + added))
  }

  /** The resolution loop of `web_research`: each distinct URL once, in the
      order the set is enumerated (`order`); the first failure ends it. */
  method ResolveAll(urls: set<string>, resolve: string -> Result<Record, Error>)
    returns (r: Result<seq<Record>, Error>, order: seq<string>)
    ensures r.Ok? <==> forall u :: u in urls ==> resolve(u).Ok?
    ensures r.Ok? ==>
              && Enumerates(order, urls)
              && AllResolved(order, resolve)
              && r.value == Resolved(order, resolve)
  {
    var remaining := urls;
    var added: seq<Record> := [];
    order := [];
    while remaining != {}
      invariant remaining <= urls
      invariant forall u :: u in order ==> u in urls && u !in remaining
      invariant forall u :: u in urls ==> u in order || u in remaining
      invariant Distinct(order)
      invariant |order| + |remaining| == |urls|
      invariant AllResolved(order, resolve)
      invariant added == Resolved(order, resolve)
      decreases remaining
    {
      var u :| u in remaining;
      var got := resolve(u);
      if got.Err? {
        return Err(got.error), order;
      }
      assert (order + [u])[..|order|] == order;
      order := order + [u];
      added := added + [got.value];
      remaining := remaining - {u};
    }
    r := Ok(added);
  }

  /** `web_research`. The distinct profile URLs of the hits are resolved one
      at a time in some order (`order`, which a Python set leaves
      unspecified); the run fails when the search fails or some URL cannot be
      resolved. On success the loop count goes up by one, the listing and the
      blocks of this search replace the previous ones, and exactly one record
      per distinct URL is appended after the prior profiles. */
  method WebResearch(state: State, search: (string, nat) -> Result<seq<Source>, Error>,
                     resolve: string -> Result<Record, Error>)
    returns (r: Result<State, Error>, order: seq<string>)
    ensures var found := search(EffectiveQuery(state), MaxResults);
            r.Ok? <==> found.Ok? && forall u :: u in UrlSet(found.value) ==> resolve(u).Ok?
    ensures var found := search(EffectiveQuery(state), MaxResults);
            found.Err? ==> r == Err(found.error)
    ensures var found := search(EffectiveQuery(state), MaxResults);
            r.Ok? ==>
              && found.Ok?
              && Enumerates(order, UrlSet(found.value))
              && AllResolved(order, resolve)
              && r.value == Searched(state, ListingText(found.value), ContextText(found.value),
                                     Resolved(order, resolve))
  {
    order := [];
    var found := search(EffectiveQuery(state), MaxResults);
    if found.Err? {
      return Err(found.error), order;
    }
    var results := found.value;
    var searchText := DeduplicateAndFormatSources(results, MaxTokensPerSource);
    var urls := CollectUrls(results);
    var resolved;
    resolved, order := ResolveAll(Elements(urls), resolve);
    if resolved.Err? {
      return Err(resolved.error), order;
    }
    var listing := FormatSources(results);
    var next := Searched(state, listing, searchText, resolved.value);
    r := Ok(next);
  }

  // ---- summarize_leads ----

  /** `profile.get(key, default)`. */
  function Field(profile: Record, key: string, default: string): string
  {
    if key in profile then profile[key] else default
  }

  /** The bullet shared by the summarizer's input and the final list. */
  function ProfileLine(profile: Record): string
  {
    "- " + Field(profile, "name", "Unknown") + ": " + Field(profile, "title", "No title")
    + " at " + Field(profile, "company", "No company") + " | " + Field(profile, "url", "No URL")
  }

  const PendingNote: string := " (Profile data requested and will be available in future runs)"

  /** A record is pending when its `status` says so; a record without one is complete. */
  predicate IsPending(profile: Record)
  {
    Field(profile, "status", "complete") == "pending"
  }

  /** One line of the summarizer's profile block. */
  function NotedLine(profile: Record): string
  {
    ProfileLine(profile) + (if IsPending(profile) then PendingNote else "") + "\n"
  }

  /** The lines of the summarizer's profile block, one per record, in order. */
  function NotedLines(profiles: seq<Record>): string
  {
    ConcatMap(NotedLine, profiles)
  }

  /** Each record contributes its own line, in order: the lines of a
      concatenation are the lines of its parts. */
  lemma NotedLinesAppend(a: seq<Record>, b: seq<Record>)
    ensures NotedLines(a + b) == NotedLines(a) + NotedLines(b)
  {
    ConcatMapAppend(NotedLine, a, b);
  }

  /** A record's line carries the pending note exactly when the record is
      pending; a record without a status is complete. */
  lemma PendingNoteExactly(profile: Record)
    ensures NotedLine(profile) == ProfileLine(profile) + PendingNote + "\n" <==> IsPending(profile)
    ensures NotedLine(profile) == ProfileLine(profile) + "\n" <==> !IsPending(profile)
    ensures "status" !in profile ==> !IsPending(profile)
  {
    var plain := ProfileLine(profile) + "\n";
    var noted := ProfileLine(profile) + PendingNote + "\n";
    assert |noted| > |plain|;
  }

  /** The profile block: absent when there are no records. */
  function ProfileBlock(profiles: seq<Record>): string
  {
    if |profiles| == 0 then ""
    else "\n\n<LinkedIn Profiles>\n" + NotedLines(profiles) + "</LinkedIn Profiles>"
  }

  const NoResultsYet: string := "No web research results available yet."

  /** The most recent search context, or a placeholder when there is none. */
  function LatestResults(state: State): string
  {
    var results := state.webResearchResults.GetOr([]);
    if |results| == 0 then NoResultsYet else results[|results| - 1]
  }

  function CriteriaSection(topic: string): string
  {
    "<Lead Criteria> \n " + topic + " \n </Lead Criteria>\n\n"
  }

  /** The body of the message, before any profile block: the criteria, then
      the existing leads and the newest results when there is a summary, or
      the newest results alone when there is none. */
  function MessageBody(state: State): string
  {
    var existing := state.runningSummary.GetOr("");
    var latest := LatestResults(state);
    if existing != "" then
      CriteriaSection(state.topic)
      + "<Existing Leads> \n " + existing + " \n </Existing Leads>\n\n"
      + "<New Search Results> \n " + latest + " \n </New Search Results>"
    else
      CriteriaSection(state.topic) + "<Search Results> \n " + latest + " \n </Search Results>"
  }

  /** The message the summarizer receives: the body, then the profile block
      when there are profiles. */
  function SummaryMessage(state: State): string
  {
    var info := ProfileBlock(state.profiles.GetOr([]));
    if info != "" then MessageBody(state) + "\n\n" + info else MessageBody(state)
  }

  /** The sections of the summarizer's message: the criteria first; the
      existing leads, followed by the newest results, exactly when there is
      a summary; and the message closes with the profile block when there are
      profiles and with the results otherwise. */
  lemma MessageSections(state: State)
    ensures var msg := SummaryMessage(state);
            var existing := state.runningSummary.GetOr("");
            var crit := CriteriaSection(state.topic);
            && (existing != "" ==>
                  StartsWith(msg, crit + "<Existing Leads> \n " + existing + " \n </Existing Leads>\n\n"
                                  + "<New Search Results> \n " + LatestResults(state)))
            && (existing == "" ==>
                  StartsWith(msg, crit + "<Search Results> \n " + LatestResults(state) + " \n </Search Results>"))
            && (state.profiles.GetOr([]) != [] ==> EndsWith(msg, "</LinkedIn Profiles>"))
            && (state.profiles.GetOr([]) == [] ==>
                  EndsWith(msg, if existing != "" then " \n </New Search Results>" else " \n </Search Results>"))
  {
    MessageOpens(state);
    MessageCloses(state);
  }

  /** The message starts with its body. */
  lemma MessageStartsWithBody(state: State)
    ensures StartsWith(SummaryMessage(state), MessageBody(state))
  {
    var msg, body := SummaryMessage(state), MessageBody(state);
    var info := ProfileBlock(state.profiles.GetOr([]));
    if info != "" {
      assert msg == body + "\n\n" + info;
      AppendEnds(body + "\n\n", info);
      AppendEnds(body, "\n\n");
      StartsWithTransitive(msg, body + "\n\n", body);
    } else {
      assert msg == body + "";
      AppendEnds(body, "");
    }
  }

  lemma MessageOpens(state: State)
    ensures var msg := SummaryMessage(state);
            var existing := state.runningSummary.GetOr("");
            var crit := CriteriaSection(state.topic);
            && (existing != "" ==>
                  StartsWith(msg, crit + "<Existing Leads> \n " + existing + " \n </Existing Leads>\n\n"
                                  + "<New Search Results> \n " + LatestResults(state)))
            && (existing == "" ==>
                  StartsWith(msg, crit + "<Search Results> \n " + LatestResults(state) + " \n </Search Results>"))
  {
    var msg, body := SummaryMessage(state), MessageBody(state);
    var existing := state.runningSummary.GetOr("");
    var crit, latest := CriteriaSection(state.topic), LatestResults(state);
    MessageStartsWithBody(state);
    if existing != "" {
      var head := crit + "<Existing Leads> \n " + existing + " \n </Existing Leads>\n\n"
                  + "<New Search Results> \n " + latest;
      assert body == head + " \n </New Search Results>";
      AppendEnds(head, " \n </New Search Results>");
      StartsWithTransitive(msg, body, head);
    } else {
      assert body == crit + "<Search Results> \n " + latest + " \n </Search Results>";
    }
  }

  lemma MessageCloses(state: State)
    ensures var msg := SummaryMessage(state);
            var existing := state.runningSummary.GetOr("");
            && (state.profiles.GetOr([]) != [] ==> EndsWith(msg, "</LinkedIn Profiles>"))
            && (state.profiles.GetOr([]) == [] ==>
                  EndsWith(msg, if existing != "" then " \n </New Search Results>" else " \n </Search Results>"))
  {
    var msg, body := SummaryMessage(state), MessageBody(state);
    var existing := state.runningSummary.GetOr("");
    var crit, latest := CriteriaSection(state.topic), LatestResults(state);
    var profiles := state.profiles.GetOr([]);
    var info := ProfileBlock(profiles);
    if profiles != [] {
      var open := "\n\n<LinkedIn Profiles>\n" + NotedLines(profiles);
      assert info == open + "</LinkedIn Profiles>";
      assert msg == body + "\n\n" + info;
      AppendEnds(body + "\n\n", info);
      AppendEnds(open, "</LinkedIn Profiles>");
      EndsWithTransitive(msg, info, "</LinkedIn Profiles>");
    } else if existing != "" {
      var head := crit + "<Existing Leads> \n " + existing + " \n </Existing Leads>\n\n"
                  + "<New Search Results> \n " + latest;
      assert msg == head + " \n </New Search Results>";
      AppendEnds(head, " \n </New Search Results>");
    } else {
      var head := crit + "<Search Results> \n " + latest;
      assert msg == head + " \n </Search Results>";
      AppendEnds(head, " \n </Search Results>");
    }
  }

  /** The profile-block loop of `summarize_leads`. */
  method BuildProfileBlock(profiles: seq<Record>) returns (info: string)
    ensures info == ProfileBlock(profiles)
  {
    info := "";
    if |profiles| > 0 {
      var lines := "";
      var i := 0;
      while i < |profiles|
        invariant 0 <= i <= |profiles|
        invariant lines == NotedLines(profiles[..i])
      {
        var p := profiles[i];
        var line := ProfileLine(p);
        if Field(p, "status", "complete") == "pending" {
          line := line + PendingNote;
        }
        line := line + "\n";
        assert line == NotedLine(p);
        ConcatMapPrefix(NotedLine, profiles, i);
        lines := lines + line;
        i := i + 1;
      }
      assert profiles[..i] == profiles;
      info := "\n\n<LinkedIn Profiles>\n" + lines + "</LinkedIn Profiles>";
    }
  }

  /** `summarize_leads`: builds the message, asks the summarizer, and stores
      its answer as the running summary; nothing else changes. */
  method SummarizeLeads(state: State, summarize: string -> string) returns (message: string, next: State)
    ensures message == SummaryMessage(state)
    ensures next == state.(runningSummary := Some(summarize(message)))
  {
    var existing := state.runningSummary.GetOr("");
    var results := state.webResearchResults.GetOr([]);
    if |results| == 0 {
      results := [NoResultsYet];
    }
    var latest := results[|results| - 1];
    assert latest == LatestResults(state);
    var info := BuildProfileBlock(state.profiles.GetOr([]));
    if existing != "" {
      message := "<Lead Criteria> \n " + state.topic + " \n </Lead Criteria>\n\n"
        + "<Existing Leads> \n " + existing + " \n </Existing Leads>\n\n"
        + "<New Search Results> \n " + latest + " \n </New Search Results>";
    } else {
      message := "<Lead Criteria> \n " + state.topic + " \n </Lead Criteria>\n\n"
        + "<Search Results> \n " + latest + " \n </Search Results>";
    }
    assert message == MessageBody(state);
    if info != "" {
      message := message + "\n\n" + info;
    }
    next := state.(runningSummary := Some(summarize(message)));
  }

  // ---- finalize_leads ----

  /** Every line of every gathered listing, listing by listing. */
  function AllLines(sources: seq<string>): seq<string>
  {
    if |sources| == 0 then []
    else AllLines(sources[..|sources| - 1]) + SplitLines(sources[|sources| - 1])
  }

  /** The line at `i` is kept: it is not blank and has not occurred before. */
  predicate FirstSighting(lines: seq<string>, i: nat)
    requires i < |lines|
  {
    !IsBlank(lines[i]) && lines[i] !in lines[..i]
  }

  /** The non-blank lines, each once, at its first occurrence. */
  function UniqueLines(lines: seq<string>): seq<string>
  {
    if |lines| == 0 then []
    else
      var n := |lines| - 1;
      UniqueLines(lines[..n]) + (if FirstSighting(lines, n) then [lines[n]] else [])
  }

  /** A line is kept exactly when it occurs and is not blank. */
  lemma {:induction false} UniqueLinesMembers(lines: seq<string>)
    ensures forall x :: x in UniqueLines(lines) <==> x in lines && !IsBlank(x)
  {
    if |lines| > 0 {
      var n := |lines| - 1;
      UniqueLinesMembers(lines[..n]);
      assert lines == lines[..n] + [lines[n]];
    }
  }

  /** Appending one line keeps it exactly when it is not blank and not yet kept. */
  lemma UniqueLinesSnoc(lines: seq<string>, x: string)
    ensures UniqueLines(lines + [x]) ==
            UniqueLines(lines) + (if !IsBlank(x) && x !in UniqueLines(lines) then [x] else [])
  {
    var all := lines + [x];
    assert all[..|lines|] == lines;
    UniqueLinesMembers(lines);
  }

  predicate NoneBlank(lines: seq<string>)
  {
    forall k :: 0 <= k < |lines| ==> !IsBlank(lines[k])
  }

  /** The kept lines are non-blank and pairwise distinct. */
  lemma {:induction false} UniqueLinesDistinct(lines: seq<string>)
    ensures NoneBlank(UniqueLines(lines)) && Distinct(UniqueLines(lines))
  {
    if |lines| > 0 {
      var n := |lines| - 1;
      UniqueLinesDistinct(lines[..n]);
      UniqueLinesMembers(lines[..n]);
      var u0, u := UniqueLines(lines[..n]), UniqueLines(lines);
      assert NoneBlank(u0) && Distinct(u0);
      if FirstSighting(lines, n) {
        assert u == u0 + [lines[n]];
        assert lines[n] !in u0;
        forall j, k | 0 <= j < k < |u| ensures u[j] != u[k] {
          assert u[j] == u0[j];
          if k == |u0| {
            assert u0[j] in u0;
          } else {
            assert u[k] == u0[k];
          }
        }
      }
    }
  }

  /** Position of the first occurrence of `x`. */
  function FirstIndex(lines: seq<string>, x: string): (i: nat)
    requires x in lines
    ensures i < |lines| && lines[i] == x && x !in lines[..i]
  {
    if lines[0] == x then 0
    else
      assert x in lines[1..] by { var k :| 0 <= k < |lines| && lines[k] == x; assert lines[1..][k - 1] == x; }
      var i := 1 + FirstIndex(lines[1..], x);
      assert lines[..i] == [lines[0]] + lines[1..][..i - 1];
      i
  }

  lemma PrefixHolds(s: seq<string>, i: nat, j: nat)
    ensures j < i <= |s| ==> s[j] in s[..i]
  {
    if j < i <= |s| {
      assert s[..i][j] == s[j];
    }
  }

  /** Appending a line does not move the first occurrence of an earlier one. */
  lemma FirstIndexSnoc(lines: seq<string>, x: string, y: string)
    requires y in lines
    ensures FirstIndex(lines + [x], y) == FirstIndex(lines, y)
  {
    var i, j := FirstIndex(lines + [x], y), FirstIndex(lines, y);
    if i < j {
      assert false;
    } else if j < i {
      PrefixHolds(lines + [x], i, j);
      assert false;
    }
  }

  /** The lines of `kept` occur in `lines`, in the order of their first occurrences. */
  predicate FirstSeenOrder(lines: seq<string>, kept: seq<string>)
  {
    forall j, k :: 0 <= j < k < |kept| ==>
      kept[j] in lines && kept[k] in lines && FirstIndex(lines, kept[j]) < FirstIndex(lines, kept[k])
  }

  /** The kept lines keep the order of their first occurrences. */
  lemma {:induction false} UniqueLinesOrder(lines: seq<string>)
    ensures FirstSeenOrder(lines, UniqueLines(lines))
  {
    if |lines| > 0 {
      var n := |lines| - 1;
      var init := lines[..n];
      assert lines == init + [lines[n]];
      UniqueLinesOrder(init);
      UniqueLinesMembers(init);
      var x := lines[n];
      var u0 := UniqueLines(init);
      var u := UniqueLines(lines);
      assert u == u0 + (if FirstSighting(lines, n) then [x] else []);
      assert FirstSeenOrder(init, u0);
      forall j, k | 0 <= j < k < |u|
        ensures u[j] in lines && u[k] in lines && FirstIndex(lines, u[j]) < FirstIndex(lines, u[k])
      {
        assert u[j] == u0[j];
        assert u0[j] in u0;
        FirstIndexSnoc(init, x, u0[j]);
        if k < |u0| {
          assert u[k] == u0[k];
          assert u0[k] in u0;
          FirstIndexSnoc(init, x, u0[k]);
          assert FirstIndex(init, u0[j]) < FirstIndex(init, u0[k]);
        } else {
          assert u[k] == x && x !in init;
          var i := FirstIndex(lines, x);
          if i < n {
            assert false;
          }
          assert FirstIndex(init, u0[j]) < |init|;
        }
      }
    }
  }

  /** Lines that are already non-blank and distinct are kept as they are. */
  lemma {:induction false} UniqueLinesOfUnique(lines: seq<string>)
    requires NoneBlank(lines) && Distinct(lines)
    ensures UniqueLines(lines) == lines
  {
    if |lines| > 0 {
      var n := |lines| - 1;
      UniqueLinesOfUnique(lines[..n]);
      assert lines[n] !in lines[..n];
      assert lines == lines[..n] + [lines[n]];
    }
  }

  /** No gathered line contains a newline. */
  lemma {:induction false} AllLinesHaveNoNewline(sources: seq<string>)
    ensures forall k :: 0 <= k < |AllLines(sources)| ==> NoNewline(AllLines(sources)[k])
  {
    if |sources| > 0 {
      var n := |sources| - 1;
      AllLinesHaveNoNewline(sources[..n]);
      SplitLinesHasNoNewline(sources[n]);
      var a, b := AllLines(sources[..n]), SplitLines(sources[n]);
      forall k | 0 <= k < |a + b| ensures NoNewline((a + b)[k]) {
        if k >= |a| { assert (a + b)[k] == b[k - |a|]; }
      }
    }
  }

  /** The sources section of the final list. */
  function SourcesSection(sources: seq<string>): string
  {
    Join(UniqueLines(AllLines(sources)), "\n")
  }

  /** The lines of the sources section are the kept lines themselves: the
      section holds no blank and no repeated line. */
  lemma SourcesSectionLines(sources: seq<string>)
    ensures var u := UniqueLines(AllLines(sources));
            u != [] ==> SplitLines(SourcesSection(sources)) == u
  {
    var u := UniqueLines(AllLines(sources));
    if u != [] {
      AllLinesHaveNoNewline(sources);
      UniqueLinesMembers(AllLines(sources));
      forall k | 0 <= k < |u| ensures NoNewline(u[k]) {
        var lines := AllLines(sources);
        assert u[k] in u;
        var i :| 0 <= i < |lines| && lines[i] == u[k];
      }
      SplitJoin(u);
    }
  }

  /** Deduplicating the sources section again changes nothing. */
  lemma FinalizeDedupIdempotent(sources: seq<string>)
    ensures UniqueLines(AllLines([SourcesSection(sources)])) == UniqueLines(AllLines(sources))
  {
    var u := UniqueLines(AllLines(sources));
    var section := SourcesSection(sources);
    AllLinesSingle(section);
    var again := SplitLines(section);
    assert AllLines([section]) == again;
    UniqueLinesDistinct(AllLines(sources));
    if u == [] {
      assert section == "";
      assert again == [""];
      assert IsBlank(again[0]);
      assert again[..0] == [];
      assert UniqueLines(again) == [];
    } else {
      SourcesSectionLines(sources);
      assert again == u;
      UniqueLinesOfUnique(u);
    }
  }

  lemma AllLinesSingle(s: string)
    ensures AllLines([s]) == SplitLines(s)
  {
    assert [s][..0] == [];
  }

  /** The bullets of the final profile section, one per record. */
  function ProfileEntries(profiles: seq<Record>): string
  {
    ConcatMap(EntryLine, profiles)
  }

  function EntryLine(profile: Record): string
  {
    ProfileLine(profile) + "\n"
  }

  const NoLeads: string := "No leads available."

  /** The final lead list: the summary, the deduplicated sources, then the
      profile section when there are profiles. */
  function FinalList(state: State): string
  {
    var profiles := state.profiles.GetOr([]);
    var head := "## Lead List\n\n" + state.runningSummary.GetOr(NoLeads) + "\n\n### Sources:\n"
                + SourcesSection(state.sourcesGathered.GetOr([]));
    if |profiles| == 0 then head else head + ("\n\n## LinkedIn Profiles\n" + ProfileEntries(profiles))
  }

  lemma ElementsSnoc(xs: seq<string>, x: string)
    ensures Elements(xs + [x]) == Elements(xs) + {x}
  {
  }

  /** The inner loop of the deduplication: the lines of one listing, given
      the lines kept so far from `done` and the set of those lines. */
  method KeepNewLines(ghost done: seq<string>, lines: seq<string>, kept: seq<string>, seen: set<string>)
    returns (kept': seq<string>, seen': set<string>)
    requires kept == UniqueLines(done) && seen == Elements(kept)
    ensures kept' == UniqueLines(done + lines) && seen' == Elements(kept')
  {
    kept', seen' := kept, seen;
    var j := 0;
    assert done + lines[..0] == done;
    while j < |lines|
      invariant 0 <= j <= |lines|
      invariant kept' == UniqueLines(done + lines[..j])
      invariant seen' == Elements(kept')
    {
      var line := lines[j];
      ghost var before := done + lines[..j];
      UniqueLinesSnoc(before, line);
      assert done + lines[..j + 1] == before + [line];
      if !IsBlank(line) && line !in seen' {
        ElementsSnoc(kept', line);
        seen' := seen' + {line};
        kept' := kept' + [line];
      }
      j := j + 1;
    }
    assert lines[..j] == lines;
  }

  /** The deduplication loop of `finalize_leads`. */
  method DedupLines(sources: seq<string>) returns (unique: seq<string>)
    ensures unique == UniqueLines(AllLines(sources))
  {
    var seen: set<string> := {};
    unique := [];
    var i := 0;
    while i < |sources|
      invariant 0 <= i <= |sources|
      invariant unique == UniqueLines(AllLines(sources[..i]))
      invariant seen == Elements(unique)
    {
      assert sources[..i + 1][..i] == sources[..i];
      unique, seen := KeepNewLines(AllLines(sources[..i]), SplitLines(sources[i]), unique, seen);
      i := i + 1;
    }
    assert sources[..i] == sources;
  }

  /** `finalize_leads`: replaces the running summary by the final list;
      nothing else changes. */
  method FinalizeLeads(state: State) returns (next: State)
    ensures next == state.(runningSummary := Some(FinalList(state)))
  {
    var summary := state.runningSummary.GetOr(NoLeads);
    var sources := state.sourcesGathered.GetOr([]);
    var profiles := state.profiles.GetOr([]);
    var unique := DedupLines(sources);
    var section := "";
    if |profiles| > 0 {
      var entries := "";
      var i := 0;
      while i < |profiles|
        invariant 0 <= i <= |profiles|
        invariant entries == ProfileEntries(profiles[..i])
      {
        ConcatMapPrefix(EntryLine, profiles, i);
        entries := entries + (ProfileLine(profiles[i]) + "\n");
        i := i + 1;
      }
      assert profiles[..i] == profiles;
      section := "\n\n## LinkedIn Profiles\n" + entries;
    }
    var all := Join(unique, "\n");
    var final := "## Lead List\n\n" + summary + "\n\n### Sources:\n" + all;
    if section != "" {
      final := final + section;
    }
    next := state.(runningSummary := Some(final));
  }

  /** The final list always opens with its heading, and closes with the
      profile section exactly when there are profiles. */
  lemma FinalListHeading(state: State)
    ensures StartsWith(FinalList(state), "## Lead List\n\n")
    ensures var profiles := state.profiles.GetOr([]);
            var sources := "## Lead List\n\n" + state.runningSummary.GetOr(NoLeads) + "\n\n### Sources:\n"
                           + SourcesSection(state.sourcesGathered.GetOr([]));
            && (profiles == [] ==> FinalList(state) == sources)
            && (profiles != [] ==> FinalList(state) == sources + ("\n\n## LinkedIn Profiles\n" + ProfileEntries(profiles)))
  {
    var profiles := state.profiles.GetOr([]);
    var rest := state.runningSummary.GetOr(NoLeads) + "\n\n### Sources:\n" + SourcesSection(state.sourcesGathered.GetOr([]));
    var head := "## Lead List\n\n" + state.runningSummary.GetOr(NoLeads) + "\n\n### Sources:\n"
                + SourcesSection(state.sourcesGathered.GetOr([]));
    var pre := "## Lead List\n\n";
    var mid := "## Lead List\n\n" + state.runningSummary.GetOr(NoLeads) + "\n\n### Sources:\n";
    var with := pre + state.runningSummary.GetOr(NoLeads);
    AppendEnds(pre, state.runningSummary.GetOr(NoLeads));
    AppendEnds(with, "\n\n### Sources:\n");
    StartsWithTransitive(mid, with, pre);
    AppendEnds(mid, SourcesSection(state.sourcesGathered.GetOr([])));
    StartsWithTransitive(head, mid, pre);
    if |profiles| > 0 {
      AppendEnds(head, "\n\n## LinkedIn Profiles\n" + ProfileEntries(profiles));
      StartsWithTransitive(FinalList(state), head, pre);
    }
  }
}

=== FILE: research_loop.dfy ===
/** The wiring of the lead-research graph: the entry edge, the fixed edges
    between the nodes, the conditional edge out of the reflection step, and
    the interpreter that runs them until the end node. */
module ResearchLoop {
  import opened Wrappers
  import opened Errors
  import opened Text
  import opened Sources
  import opened ProfileStore
  import G = ResearchGraph

  datatype Node = GenerateQuery | WebResearch | SummarizeLeads | ReflectOnLeads | FinalizeLeads | End

  /** `route_research`: another search round while the loop count (0 when
      absent) is at most the configured maximum, the final list otherwise. */
  function RouteResearch(state: G.State, maxLoops: int): (r: Node)
    ensures r == WebResearch <==> state.loopCount.GetOr(0) <= maxLoops
    ensures r == FinalizeLeads <==> state.loopCount.GetOr(0) > maxLoops
  {
    if state.loopCount.GetOr(0) <= maxLoops then WebResearch else FinalizeLeads
  }

  /** The edge out of each node; the graph is entered at `GenerateQuery`. */
  function Successor(node: Node, state: G.State, maxLoops: int): (r: Node)
    ensures r != GenerateQuery
    ensures r == WebResearch <==>
              node == GenerateQuery || (node == ReflectOnLeads && state.loopCount.GetOr(0) <= maxLoops)
    ensures r == SummarizeLeads <==> node == WebResearch
    ensures r == ReflectOnLeads <==> node == SummarizeLeads
    ensures r == FinalizeLeads <==> node == ReflectOnLeads && state.loopCount.GetOr(0) > maxLoops
    ensures r == End <==> node == FinalizeLeads || node == End
  {
    match node
    case GenerateQuery => WebResearch
    case WebResearch => SummarizeLeads
    case SummarizeLeads => ReflectOnLeads
    case ReflectOnLeads => RouteResearch(state, maxLoops)
    case FinalizeLeads => End
    case End => End
  }

  /** The outside services a run consults: the query-writing model, the web
      search, the profile gateway, the summarizing model and the reflecting
      model. */
  datatype Services = Services(
    writeQuery: string -> G.Reply,
    search: (string, nat) -> Result<seq<Source>, Error>,
    resolve: string -> Result<Record, Error>,
    summarize: string -> string,
    reflect: (string, string) -> G.Reply)

  /** Services under which no node fails: every search and every profile
      lookup succeeds, and no query or reflection reply is JSON other than an
      object. */
  ghost predicate NeverFails(services: Services)
  {
    && (forall q, k :: services.search(q, k).Ok?)
    && (forall u :: services.resolve(u).Ok?)
    && (forall t :: !services.writeQuery(t).parsed.OtherJson?)
    && (forall t, summary :: !services.reflect(t, summary).parsed.OtherJson?)
  }

  /** `SummaryStateOutput`. */
  datatype Output = Output(topic: string, summary: string)

  /** The number of search rounds a run makes: the route test is `<=` and the
      count reaches it only after the first round, so one more than the
      maximum, and never fewer than one. */
  function Rounds(maxLoops: int): (n: nat)
    ensures n >= 1
  {
    if maxLoops >= 0 then maxLoops + 1 else 1
  }

  /** `k` search rounds: search, summarize, reflect. */
  function Cycles(k: nat): (path: seq<Node>)
    ensures |path| == 3 * k
  {
    if k == 0 then [] else [WebResearch, SummarizeLeads, ReflectOnLeads] + Cycles(k - 1)
  }

  /** The path of a run that does not fail. */
  function Path(maxLoops: int): seq<Node>
  {
    [GenerateQuery] + Cycles(Rounds(maxLoops)) + [FinalizeLeads]
  }

  /** Whether `rounds` completed searches are consistent with being at `node`. */
  predicate Reachable(node: Node, rounds: nat, maxLoops: int)
  {
    match node
    case GenerateQuery => rounds == 0
    case WebResearch => rounds < Rounds(maxLoops)
    case SummarizeLeads => 1 <= rounds <= Rounds(maxLoops)
    case ReflectOnLeads => 1 <= rounds <= Rounds(maxLoops)
    case FinalizeLeads => rounds == Rounds(maxLoops)
    case End => rounds == Rounds(maxLoops)
  }

  /** A node's rank within a round, so that the remaining path is well founded. */
  function Rank(node: Node): nat
  {
    match node
    case GenerateQuery => 4
    case SummarizeLeads => 3
    case ReflectOnLeads => 2
    case FinalizeLeads => 1
    case WebResearch => 0
    case End => 0
  }

  /** The nodes still to visit from `node` after `rounds` searches: each node
      followed by what remains from its successor, with the route out of the
      reflection step decided by the number of rounds made. */
  function Remaining(node: Node, rounds: nat, maxLoops: int): (rest: seq<Node>)
    requires Reachable(node, rounds, maxLoops)
    ensures node != End ==> |rest| > 0 && rest[0] == node
    decreases Rounds(maxLoops) - rounds, Rank(node)
  {
    match node
    case GenerateQuery => [GenerateQuery] + Remaining(WebResearch, 0, maxLoops)
    case WebResearch => [WebResearch] + Remaining(SummarizeLeads, rounds + 1, maxLoops)
    case SummarizeLeads => [SummarizeLeads] + Remaining(ReflectOnLeads, rounds, maxLoops)
    case ReflectOnLeads =>
      [ReflectOnLeads]
      + (if rounds < Rounds(maxLoops) then Remaining(WebResearch, rounds, maxLoops)
         else Remaining(FinalizeLeads, rounds, maxLoops))
    case FinalizeLeads => [FinalizeLeads] + Remaining(End, rounds, maxLoops)
    case End => []
  }

  /** One round read off the edges: search, summarize, reflect, then either
      the next search or the final step. */
  lemma RoundUnfolds(rounds: nat, maxLoops: int)
    requires rounds < Rounds(maxLoops)
    ensures Remaining(WebResearch, rounds, maxLoops)
            == [WebResearch, SummarizeLeads, ReflectOnLeads]
               + (if rounds + 1 < Rounds(maxLoops) then Remaining(WebResearch, rounds + 1, maxLoops)
                  else [FinalizeLeads])
  {
    var tail := if rounds + 1 < Rounds(maxLoops) then Remaining(WebResearch, rounds + 1, maxLoops)
                else Remaining(FinalizeLeads, rounds + 1, maxLoops);
    assert Remaining(ReflectOnLeads, rounds + 1, maxLoops) == [ReflectOnLeads] + tail;
    assert Remaining(SummarizeLeads, rounds + 1, maxLoops) == [SummarizeLeads] + ([ReflectOnLeads] + tail);
    assert [WebResearch] + ([SummarizeLeads] + ([ReflectOnLeads] + tail))
        == [WebResearch, SummarizeLeads, ReflectOnLeads] + tail;
    if rounds + 1 == Rounds(maxLoops) {
      assert Remaining(FinalizeLeads, rounds + 1, maxLoops) == [FinalizeLeads] + Remaining(End, rounds + 1, maxLoops);
    }
  }

  /** From a search at round `rounds`, with `k` rounds left to make, the rest
      of the run is those rounds and then the final step. */
  lemma {:induction false} RemainingFromSearch(rounds: nat, k: nat, maxLoops: int)
    requires k >= 1 && rounds + k == Rounds(maxLoops)
    ensures Remaining(WebResearch, rounds, maxLoops) == Cycles(k) + [FinalizeLeads]
    decreases k
  {
    var round: seq<Node> := [WebResearch, SummarizeLeads, ReflectOnLeads];
    var here := Remaining(WebResearch, rounds, maxLoops);
    var tail := if k > 1 then Remaining(WebResearch, rounds + 1, maxLoops) else [FinalizeLeads];
    RoundUnfolds(rounds, maxLoops);
    assert here == round + tail;
    CyclesAppend(k, [FinalizeLeads]);
    if k > 1 {
      RemainingFromSearch(rounds + 1, k - 1, maxLoops);
      assert tail == Cycles(k - 1) + [FinalizeLeads];
    } else {
      CyclesNone(k - 1);
      assert tail == Cycles(k - 1) + [FinalizeLeads];
    }
  }

  lemma CyclesNone(k: nat)
    requires k == 0
    ensures Cycles(k) == []
  {
  }

  /** Adding a round in front of what follows `k - 1` rounds. */
  lemma CyclesAppend(k: nat, after: seq<Node>)
    requires k >= 1
    ensures Cycles(k) + after == [WebResearch, SummarizeLeads, ReflectOnLeads] + (Cycles(k - 1) + after)
  {
  }

  /** The whole run, read off the edges, is the closed-form path. */
  lemma RemainingFromStart(maxLoops: int)
    ensures Remaining(GenerateQuery, 0, maxLoops) == Path(maxLoops)
  {
    RemainingFromSearch(0, Rounds(maxLoops), maxLoops);
  }

  /** After `rounds` searches (at least one), the route asks for another
      search exactly while fewer than `Rounds(maxLoops)` rounds have been made:
      the test `count <= max` allows one round more than the maximum. */
  lemma RouteAfterRounds(state: G.State, rounds: nat, maxLoops: int)
    requires 1 <= rounds && state.loopCount.GetOr(0) == rounds
    ensures RouteResearch(state, maxLoops) == WebResearch <==> rounds < Rounds(maxLoops)
  {
  }

  /** Following the edge out of a node consumes exactly that node of the
      remaining path: the route out of the reflection step continues
      precisely while fewer than `Rounds(maxLoops)` rounds have been made. */
  lemma StepFollowsPath(node: Node, state: G.State, rounds: nat, maxLoops: int)
    requires node != End && Reachable(node, rounds, maxLoops)
    requires node == ReflectOnLeads ==> state.loopCount.GetOr(0) == rounds
    ensures var rounds' := if node == WebResearch then rounds + 1 else rounds;
            var next := Successor(node, state, maxLoops);
            && Reachable(next, rounds', maxLoops)
            && Remaining(node, rounds, maxLoops) == [node] + Remaining(next, rounds', maxLoops)
  {
    if node == ReflectOnLeads {
      RouteAfterRounds(state, rounds, maxLoops);
    }
  }

  /** What one node does to the state, through its transition in
      `ResearchGraph` and the matching service; `order` is the order in which
      the search step looked the profile URLs up. */
  ghost predicate Transition(node: Node, state: G.State, services: Services, order: seq<string>,
                             r: Result<G.State, Error>)
  {
    match node
    case GenerateQuery => r == G.GenerateQuery(state, services.writeQuery)
    case WebResearch =>
      var found := services.search(G.EffectiveQuery(state), G.MaxResults);
      && (r.Ok? <==> found.Ok? && forall u :: u in G.UrlSet(found.value) ==> services.resolve(u).Ok?)
      && (found.Err? ==> r == Err(found.error))
      && (r.Ok? ==> G.Enumerates(order, G.UrlSet(found.value)) && G.AllResolved(order, services.resolve)
                    && r.value == G.Searched(state, G.ListingText(found.value), G.ContextText(found.value),
                                             G.Resolved(order, services.resolve)))
    case SummarizeLeads => r == Ok(state.(runningSummary := Some(services.summarize(G.SummaryMessage(state)))))
    case ReflectOnLeads => r == G.ReflectOnLeads(state, services.reflect)
    case FinalizeLeads => r == Ok(state.(runningSummary := Some(G.FinalList(state))))
    case End => r == Ok(state)
  }

  /** Runs one node on the state: each node is its transition in
      `ResearchGraph` over the matching service (`order` is the order in which
      the search step looked the profile URLs up). Every node keeps the topic;
      only the search step advances the loop count, by one; only the search,
      query and reflection steps can fail; the final step leaves the lead list
      as the running summary. */
  method Execute(node: Node, state: G.State, services: Services)
    returns (r: Result<G.State, Error>, ghost order: seq<string>)
    requires node != End
    ensures Transition(node, state, services, order, r)
    ensures r.Err? ==> node in {GenerateQuery, WebResearch, ReflectOnLeads}
    ensures NeverFails(services) ==> r.Ok?
    ensures r.Ok? ==> if node == WebResearch then r.value.sourcesGathered.Some? && |r.value.sourcesGathered.value| == 1
                      else r.value.sourcesGathered == state.sourcesGathered
    ensures r.Ok? && (node == SummarizeLeads || state.runningSummary.Some?) ==> r.value.runningSummary.Some?
    ensures r.Ok? ==> r.value.topic == state.topic
    ensures r.Ok? ==> r.value.loopCount.GetOr(0) == state.loopCount.GetOr(0) + (if node == WebResearch then 1 else 0)
    ensures node == FinalizeLeads ==> r == Ok(state.(runningSummary := Some(G.FinalList(state))))
    ensures r.Ok? && node == FinalizeLeads ==>
              r.value.runningSummary.Some? && StartsWith(r.value.runningSummary.value, "## Lead List\n\n")
  {
    order := [];
    match node {
      case GenerateQuery =>
        r := G.GenerateQuery(state, services.writeQuery);
      case WebResearch =>
        r, order := G.WebResearch(state, services.search, services.resolve);
      case SummarizeLeads =>
        var message, next := G.SummarizeLeads(state, services.summarize);
        r := Ok(next);
      case ReflectOnLeads =>
        r := G.ReflectOnLeads(state, services.reflect);
      case FinalizeLeads =>
        G.FinalListHeading(state);
        var next := G.FinalizeLeads(state);
        r := Ok(next);
    }
  }

  /** The trace of a run so far: node `nodes[i]` took the state `states[i]`
      to `states[i + 1]` by its transition (looking profile URLs up in the
      order `orders[i]`), and each node after the first is the one the edge
      out of its predecessor chose on the state that predecessor produced. */
  ghost predicate Follows(nodes: seq<Node>, states: seq<G.State>, orders: seq<seq<string>>,
                          services: Services, maxLoops: int)
  {
    && |states| == |nodes| + 1
    && |orders| == |nodes|
    && (forall i :: 0 <= i < |nodes| ==> Transition(nodes[i], states[i], services, orders[i], Ok(states[i + 1])))
    && (forall i :: 0 < i < |nodes| ==> nodes[i] == Successor(nodes[i - 1], states[i], maxLoops))
  }

  /** A trace extends by one step when the node entered is the edge's choice
      after the last node and its transition succeeds. */
  lemma FollowsSnoc(nodes: seq<Node>, states: seq<G.State>, orders: seq<seq<string>>,
                    services: Services, maxLoops: int, node: Node, order: seq<string>, next: G.State)
    requires Follows(nodes, states, orders, services, maxLoops)
    requires |nodes| > 0 ==> node == Successor(nodes[|nodes| - 1], states[|nodes|], maxLoops)
    requires Transition(node, states[|nodes|], services, order, Ok(next))
    ensures Follows(nodes + [node], states + [next], orders + [order], services, maxLoops)
  {
    var nodes', states', orders' := nodes + [node], states + [next], orders + [order];
    forall i | 0 <= i < |nodes'|
      ensures Transition(nodes'[i], states'[i], services, orders'[i], Ok(states'[i + 1]))
    {
      if i < |nodes| {
        assert nodes'[i] == nodes[i] && states'[i] == states[i] && orders'[i] == orders[i];
        assert states'[i + 1] == states[i + 1];
      }
    }
    forall i | 0 < i < |nodes'|
      ensures nodes'[i] == Successor(nodes'[i - 1], states'[i], maxLoops)
    {
      if i < |nodes| {
        assert nodes'[i] == nodes[i] && nodes'[i - 1] == nodes[i - 1] && states'[i] == states[i];
      }
    }
  }

  /** One step of a run: the node runs, and the edge out of it is followed
      with the state it produced. The step consumes exactly that node of the
      remaining path, counts a round when the node is the search, extends the
      trace `nodes`, `states`, `orders` of the run with the node's transition,
      and keeps the facts about the state that the final list relies on. */
  method Step(node: Node, state: G.State, rounds: nat, maxLoops: int, services: Services,
              ghost nodes: seq<Node>, ghost states: seq<G.State>, ghost orders: seq<seq<string>>)
    returns (r: Result<G.State, Error>, next: Node, rounds': nat, ghost order: seq<string>)
    requires node != End && Reachable(node, rounds, maxLoops)
    requires state.loopCount.GetOr(0) == rounds
    requires Follows(nodes, states, orders, services, maxLoops) && states[|nodes|] == state
    requires |nodes| > 0 ==> node == Successor(nodes[|nodes| - 1], state, maxLoops)
    ensures r.Ok? ==> Follows(nodes + [node], states + [r.value], orders + [order], services, maxLoops)
    ensures NeverFails(services) ==> r.Ok?
    ensures r.Ok? ==>
              && rounds' == (if node == WebResearch then rounds + 1 else rounds)
              && next == Successor(node, r.value, maxLoops)
              && Reachable(next, rounds', maxLoops)
              && Remaining(node, rounds, maxLoops) == [node] + Remaining(next, rounds', maxLoops)
    ensures r.Ok? ==> r.value.topic == state.topic && r.value.loopCount.GetOr(0) == rounds'
    ensures r.Ok? && node == FinalizeLeads ==> r.value == state.(runningSummary := Some(G.FinalList(state)))
    ensures r.Ok? ==> if node == WebResearch then r.value.sourcesGathered.Some? && |r.value.sourcesGathered.value| == 1
                      else r.value.sourcesGathered == state.sourcesGathered
    ensures r.Ok? && (node == SummarizeLeads || state.runningSummary.Some?) ==> r.value.runningSummary.Some?
  {
    r, order := Execute(node, state, services);
    rounds' := if node == WebResearch then rounds + 1 else rounds;
    next := End;
    if r.Ok? {
      FollowsSnoc(nodes, states, orders, services, maxLoops, node, order, r.value);
      StepFollowsPath(node, r.value, rounds, maxLoops);
      next := Successor(node, r.value, maxLoops);
    }
  }

  /** Whatever has been visited, followed by the node being entered, lies
      along the path of a run that does not fail. */
  lemma PrefixOfPath(visited: seq<Node>, node: Node, rounds: nat, maxLoops: int)
    requires Reachable(node, rounds, maxLoops) && node != End
    requires visited + Remaining(node, rounds, maxLoops) == Remaining(GenerateQuery, 0, maxLoops)
    ensures visited + [node] <= Remaining(GenerateQuery, 0, maxLoops)
  {
    var rest := Remaining(node, rounds, maxLoops);
    assert (visited + [node]) == (visited + rest)[..|visited| + 1];
  }

  lemma Advance(visited: seq<Node>, node: Node, rest: seq<Node>, rest': seq<Node>, whole: seq<Node>)
    requires visited + rest == whole && rest == [node] + rest'
    ensures (visited + [node]) + rest' == whole && |rest'| < |rest|
  {
    assert (visited + [node]) + rest' == visited + ([node] + rest');
  }

  /** What holds between steps of a run for `topic`: `node` is about to
      run on `state` after `rounds` searches; `path` lists the nodes that
      have run, which together with the nodes still to come make up the
      path of a run that does not fail; `states` and `orders` are the trace
      of those nodes (`Follows`), starting from the initial state and ending
      in `state`; once the end is reached, `last` is the state the final
      step received and `state` carries its lead list. */
  ghost predicate Progress(topic: string, maxLoops: int, services: Services, node: Node, state: G.State,
                           rounds: nat, path: seq<Node>, last: G.State, states: seq<G.State>,
                           orders: seq<seq<string>>)
  {
    && Reachable(node, rounds, maxLoops)
    && path + Remaining(node, rounds, maxLoops) == Remaining(GenerateQuery, 0, maxLoops)
    && state.topic == topic
    && state.loopCount.GetOr(0) == rounds
    && (rounds >= 1 ==> state.sourcesGathered.Some? && |state.sourcesGathered.value| == 1)
    && (rounds >= 1 && node != SummarizeLeads ==> state.runningSummary.Some?)
    && Follows(path, states, orders, services, maxLoops)
    && states[0] == G.Initial(topic)
    && states[|path|] == state
    && (|path| > 0 ==> node == Successor(path[|path| - 1], state, maxLoops))
    && (node == End ==> && |path| >= 1 && last == states[|path| - 1] && last.runningSummary.Some?
                        && state == last.(runningSummary := Some(G.FinalList(last))))
  }

  /** Runs the node a run has reached and follows the edge out of it. A
      failure leaves the nodes visited, this one included, along the path
      of a run that does not fail; a success keeps `Progress` with the node
      appended to the path and the trace, and leaves fewer nodes to run. */
  method Visit(topic: string, maxLoops: int, services: Services, node: Node, state: G.State, rounds: nat,
               path: seq<Node>, ghost last: G.State, ghost states: seq<G.State>, ghost orders: seq<seq<string>>)
    returns (r: Result<G.State, Error>, next: Node, rounds': nat,
             ghost last': G.State, ghost states': seq<G.State>, ghost orders': seq<seq<string>>)
    requires node != End && Progress(topic, maxLoops, services, node, state, rounds, path, last, states, orders)
    ensures NeverFails(services) ==> r.Ok?
    ensures r.Err? ==> path + [node] <= Path(maxLoops)
    ensures r.Ok? ==> Progress(topic, maxLoops, services, next, r.value, rounds', path + [node], last', states', orders')
    ensures r.Ok? ==> |Remaining(next, rounds', maxLoops)| < |Remaining(node, rounds, maxLoops)|
  {
    ghost var order;
    r, next, rounds', order := Step(node, state, rounds, maxLoops, services, path, states, orders);
    last', states', orders' := last, states, orders;
    if r.Err? {
      RemainingFromStart(maxLoops);
      PrefixOfPath(path, node, rounds, maxLoops);
      return;
    }
    if node == FinalizeLeads {
      last' := state;
    }
    states', orders' := states + [r.value], orders + [order];
    Advance(path, node, Remaining(node, rounds, maxLoops), Remaining(next, rounds', maxLoops),
            Remaining(GenerateQuery, 0, maxLoops));
  }

  /** A run that has reached the end node has followed the whole path, made
      `Rounds(maxLoops)` searches and holds the lead list of the state the
      final step received. */
  lemma Finished(topic: string, maxLoops: int, services: Services, state: G.State, rounds: nat,
                 path: seq<Node>, last: G.State, states: seq<G.State>, orders: seq<seq<string>>)
    requires Progress(topic, maxLoops, services, End, state, rounds, path, last, states, orders)
    ensures path == Path(maxLoops) && rounds == Rounds(maxLoops)
    ensures state.topic == topic && state.runningSummary == Some(G.FinalList(last))
    ensures StartsWith(G.FinalList(last), "## Lead List\n\n")
    ensures last.topic == topic && last.loopCount.GetOr(0) == Rounds(maxLoops)
    ensures last.runningSummary.Some? && last.sourcesGathered.Some? && |last.sourcesGathered.value| == 1
    ensures Follows(path, states, orders, services, maxLoops) && states[0] == G.Initial(topic)
    ensures |path| >= 1 && last == states[|path| - 1] && states[|path|] == state
  {
    RemainingFromStart(maxLoops);
    assert path + [] == path;
    G.FinalListHeading(last);
  }

  /** Runs the graph from the initial state for `topic` until the end node.
      A run that does not fail visits the generation step once, then exactly
      `Rounds(maxLoops)` rounds of search, summary and reflection, then the
      final step; a failing run stops partway along that same path. The
      states the run went through are `states`: the first is the initial
      state for `topic`, each node's transition takes one to the next
      (`Follows`), `last` is the one the final step received, and the
      output's summary is the lead list the final step left in the last. */
  method Run(topic: string, maxLoops: int, services: Services)
    returns (r: Result<Output, Error>, path: seq<Node>, rounds: nat, ghost last: G.State,
             ghost states: seq<G.State>, ghost orders: seq<seq<string>>)
    ensures path <= Path(maxLoops)
    ensures NeverFails(services) ==> r.Ok?
    ensures r.Ok? ==> path == Path(maxLoops) && rounds == Rounds(maxLoops)
    ensures r.Ok? ==> r.value.topic == topic && StartsWith(r.value.summary, "## Lead List\n\n")
    ensures r.Ok? ==> r.value.summary == G.FinalList(last)
                      && last.topic == topic && last.loopCount.GetOr(0) == Rounds(maxLoops)
    ensures r.Ok? ==> last.runningSummary.Some? && last.sourcesGathered.Some? && |last.sourcesGathered.value| == 1
    ensures r.Ok? ==> && Follows(path, states, orders, services, maxLoops) && states[0] == G.Initial(topic)
                      && |path| >= 1 && last == states[|path| - 1]
                      && states[|path|].runningSummary == Some(r.value.summary)
  {
    var state := G.Initial(topic);
    var node := GenerateQuery;
    path, rounds := [], 0;
    last, states, orders := state, [state], [];
    while node != End
      invariant Progress(topic, maxLoops, services, node, state, rounds, path, last, states, orders)
      decreases |Remaining(node, rounds, maxLoops)|
    {
      var step, next, rounds';
      step, next, rounds', last, states, orders := Visit(topic, maxLoops, services, node, state, rounds,
                                                         path, last, states, orders);
      path := path + [node];
      if step.Err? {
        return Err(step.error), path, rounds, last, states, orders;
      }
      state, node, rounds := step.value, next, rounds';
    }
    Finished(topic, maxLoops, services, state, rounds, path, last, states, orders);
    r := Ok(Output(state.topic, state.runningSummary.value));
  }
}

=== FILE: sources.dfy ===
/** Rendering of web-search hits: the numbered listing kept in
    `sources_gathered` and the deduplicated, length-bounded blocks handed to
    the summarizer. */
module Sources {
  import opened Text

  /** One search hit. The search client always fills all three keys (with ""
      when the service omits one), so every field is present. */
  datatype Source = Source(title: string, content: string, url: string)

  /** Line `i` of the numbered listing: `"{i}. {title} - {url}"`. */
  function ListLine(i: nat, s: Source): string
  {
    NatToString(i) + ". " + s.title + " - " + s.url
  }

  /** The listing's lines, numbered from 1 in input order. */
  function ListLines(sources: seq<Source>): (r: seq<string>)
    ensures |r| == |sources|
  {
    seq(|sources|, k requires 0 <= k < |sources| => ListLine(k + 1, sources[k]))
  }

  /** `format_sources`: builds the lines in a loop and joins them with newlines. */
  method FormatSources(sources: seq<Source>) returns (text: string)
    ensures text == Join(ListLines(sources), "\n")
    ensures sources == [] <==> text == ""
  {
    var formatted: seq<string> := [];
    var i := 0;
    while i < |sources|
      invariant 0 <= i <= |sources|
      invariant |formatted| == i
      invariant forall k :: 0 <= k < i ==> formatted[k] == ListLine(k + 1, sources[k])
    {
      formatted := formatted + [ListLine(i + 1, sources[i])];
      i := i + 1;
    }
    assert formatted == ListLines(sources);
    text := Join(formatted, "\n");
    if sources != [] {
      assert |ListLine(1, sources[0])| > 0;
      JoinNonEmpty(formatted);
    }
  }

  lemma JoinNonEmpty(parts: seq<string>)
    requires |parts| > 0 && |parts[0]| > 0
    ensures Join(parts, "\n") != ""
  {
    if |parts| > 1 {
      assert |Join(parts, "\n")| >= |parts[0]|;
    }
  }

  predicate SourceHasNoNewline(s: Source)
  {
    NoNewline(s.title) && NoNewline(s.url)
  }

  /** When no title or URL holds a newline, the listing has exactly one line per
      hit: splitting it at newlines gives back the numbered lines. */
  lemma ListingHasOneLinePerSource(sources: seq<Source>)
    requires |sources| > 0
    requires forall k :: 0 <= k < |sources| ==> SourceHasNoNewline(sources[k])
    ensures SplitLines(Join(ListLines(sources), "\n")) == ListLines(sources)
  {
    var lines := ListLines(sources);
    forall k | 0 <= k < |lines| ensures NoNewline(lines[k]) {
      var n := NatToString(k + 1);
      assert lines[k] == n + ". " + sources[k].title + " - " + sources[k].url;
      assert SourceHasNoNewline(sources[k]);
      forall j | 0 <= j < |lines[k]| ensures lines[k][j] != '\n' {
        var t, u := sources[k].title, sources[k].url;
        if j < |n| {
          assert lines[k][j] == n[j];
        } else if j < |n| + 2 {
        } else if j < |n| + 2 + |t| {
          assert lines[k][j] == t[j - |n| - 2];
        } else if j < |n| + 2 + |t| + 3 {
        } else {
          assert lines[k][j] == u[j - |n| - 2 - |t| - 3];
        }
      }
    }
    SplitJoin(lines);
  }

  // ---- deduplicate_and_format_sources ----

  /** Hit `i` is kept: its URL is non-empty and no earlier hit has that URL. */
  predicate Kept(sources: seq<Source>, i: nat)
    requires i < |sources|
  {
    sources[i].url != "" && forall j :: 0 <= j < i ==> sources[j].url != sources[i].url
  }

  /** Positions of the kept hits, in increasing order. */
  function KeptIndices(sources: seq<Source>): (idx: seq<nat>)
    ensures forall k :: 0 <= k < |idx| ==> idx[k] < |sources|
    ensures forall j, k :: 0 <= j < k < |idx| ==> idx[j] < idx[k]
    ensures forall i :: 0 <= i < |sources| ==> (i in idx <==> Kept(sources, i))
  {
    if |sources| == 0 then []
    else
      var n := |sources| - 1;
      var init := sources[..n];
      assert forall i :: 0 <= i < n ==> (Kept(init, i) <==> Kept(sources, i));
      KeptIndices(init) + (if Kept(sources, n) then [n] else [])
  }

  /** The hits that survive deduplication, in input order. */
  function Retained(sources: seq<Source>): seq<Source>
  {
    if |sources| == 0 then []
    else
      var n := |sources| - 1;
      Retained(sources[..n]) + (if Kept(sources, n) then [sources[n]] else [])
  }

  /** The retained hits are exactly the kept ones, in the order of their positions. */
  lemma {:induction false} RetainedAreKept(sources: seq<Source>)
    ensures |Retained(sources)| == |KeptIndices(sources)|
    ensures forall k :: 0 <= k < |Retained(sources)| ==>
              Retained(sources)[k] == sources[KeptIndices(sources)[k]]
  {
    if |sources| > 0 {
      var n := |sources| - 1;
      var init := sources[..n];
      RetainedAreKept(init);
      var r, idx := Retained(sources), KeptIndices(sources);
      forall k | 0 <= k < |r| ensures r[k] == sources[idx[k]] {
        if k < |Retained(init)| {
          assert r[k] == Retained(init)[k] && idx[k] == KeptIndices(init)[k];
        }
      }
    }
  }

  /** The set of non-empty URLs among the hits. */
  function NonEmptyUrls(sources: seq<Source>): set<string>
  {
    set i | 0 <= i < |sources| && sources[i].url != "" :: sources[i].url
  }

  /** Adding a hit adds its URL, when non-empty, to the set of URLs. */
  lemma NonEmptyUrlsSnoc(sources: seq<Source>)
    requires |sources| > 0
    ensures var u := sources[|sources| - 1].url;
            NonEmptyUrls(sources) == NonEmptyUrls(sources[..|sources| - 1]) + (if u != "" then {u} else {})
  {
    var n := |sources| - 1;
    var init := sources[..n];
    var u := sources[n].url;
    forall x | x in NonEmptyUrls(sources) ensures x in NonEmptyUrls(init) + (if u != "" then {u} else {}) {
      var i :| 0 <= i < |sources| && sources[i].url != "" && sources[i].url == x;
      if i < n { assert init[i] == sources[i]; }
    }
    forall x | x in NonEmptyUrls(init) ensures x in NonEmptyUrls(sources) {
      var i :| 0 <= i < n && init[i].url != "" && init[i].url == x;
      assert sources[i] == init[i];
    }
  }

  /** The last hit is kept exactly when its URL is non-empty and unseen before it. */
  lemma KeptLast(sources: seq<Source>)
    requires |sources| > 0
    ensures var n := |sources| - 1;
            Kept(sources, n) <==> sources[n].url != "" && sources[n].url !in NonEmptyUrls(sources[..n])
  {
    var n := |sources| - 1;
    var u := sources[n].url;
    if u != "" && u in NonEmptyUrls(sources[..n]) {
      var i :| 0 <= i < n && sources[..n][i].url != "" && sources[..n][i].url == u;
      assert sources[i].url == u;
    }
    if u != "" && !Kept(sources, n) {
      var j :| 0 <= j < n && sources[j].url == u;
      assert sources[..n][j].url == u;
    }
  }

  /** Retained hits have non-empty, pairwise different URLs, and there are as
      many of them as there are distinct non-empty URLs. */
  lemma {:induction false} RetainedUrls(sources: seq<Source>)
    ensures forall k :: 0 <= k < |Retained(sources)| ==> Retained(sources)[k].url in NonEmptyUrls(sources)
    ensures forall j, k :: 0 <= j < k < |Retained(sources)| ==> Retained(sources)[j].url != Retained(sources)[k].url
    ensures |Retained(sources)| == |NonEmptyUrls(sources)|
  {
    if |sources| > 0 {
      var n := |sources| - 1;
      RetainedUrls(sources[..n]);
      NonEmptyUrlsSnoc(sources);
      KeptLast(sources);
      RetainedCountStep(sources);
    }
  }

  /** One hit more: the count of retained hits and the count of distinct
      non-empty URLs grow together, by one exactly when the hit is kept. */
  lemma RetainedCountStep(sources: seq<Source>)
    requires |sources| > 0
    requires |Retained(sources[..|sources| - 1])| == |NonEmptyUrls(sources[..|sources| - 1])|
    ensures |Retained(sources)| == |NonEmptyUrls(sources)|
  {
    var n := |sources| - 1;
    var init := sources[..n];
    var u := sources[n].url;
    var before := NonEmptyUrls(init);
    NonEmptyUrlsSnoc(sources);
    KeptLast(sources);
    if Kept(sources, n) {
      assert |Retained(sources)| == |Retained(init)| + 1;
      AddFresh(before, u);
    } else if u == "" {
      assert NonEmptyUrls(sources) == before + {};
    } else {
      assert u in before;
      assert NonEmptyUrls(sources) == before + {u} == before;
    }
  }

  /** Adding an element not yet present grows a set by one. */
  lemma AddFresh(a: set<string>, u: string)
    requires u !in a
    ensures |a + {u}| == |a| + 1
  {
  }

  /** `content[:n]` for Python's slice semantics, where a negative `n` counts
      from the end. */
  function SlicePrefix(s: string, n: int): (r: string)
    ensures |r| <= |s|
  {
    if n >= 0 then (if n <= |s| then s[..n] else s)
    else if |s| + n > 0 then s[..|s| + n] else ""
  }

  /** Content longer than `4 * maxTokens` characters is cut to that many and
      marked with "..."; other content is kept verbatim. */
  function Truncate(content: string, maxTokens: int): (r: string)
    ensures maxTokens >= 0 && |content| > 4 * maxTokens ==> r == content[..4 * maxTokens] + "..."
    ensures maxTokens >= 0 && |content| <= 4 * maxTokens ==> r == content
    ensures maxTokens >= 0 ==> |r| <= 4 * maxTokens + 3
    ensures r == content || (|content| > 0 && r == SlicePrefix(content, 4 * maxTokens) + "...")
  {
    if content != "" && |content| > maxTokens * 4 then SlicePrefix(content, maxTokens * 4) + "..."
    else content
  }

  /** Block `i` handed to the summarizer for one retained hit. */
  function Block(i: nat, s: Source, maxTokens: int): string
  {
    "SOURCE " + NatToString(i) + ":\nTitle: " + s.title + "\nURL: " + s.url
    + "\nContent: " + Truncate(s.content, maxTokens) + "\n"
  }

  /** Blocks numbered 1..k over the retained hits. */
  function Blocks(retained: seq<Source>, maxTokens: int): (r: seq<string>)
    ensures |r| == |retained|
  {
    seq(|retained|, k requires 0 <= k < |retained| => Block(k + 1, retained[k], maxTokens))
  }

  /** The first loop of `deduplicate_and_format_sources`: the hits whose URL
      is non-empty and not seen before, in input order. */
  method RetainUnique(sources: seq<Source>) returns (unique: seq<Source>)
    ensures unique == Retained(sources)
  {
    var seen: set<string> := {};
    unique := [];
    var i := 0;
    while i < |sources|
      invariant 0 <= i <= |sources|
      invariant unique == Retained(sources[..i])
      invariant seen == NonEmptyUrls(sources[..i])
    {
      var url := sources[i].url;
      var prefix := sources[..i + 1];
      assert prefix[..i] == sources[..i];
      KeptLast(prefix);
      NonEmptyUrlsSnoc(prefix);
      if url != "" && url !in seen {
        seen := seen + {url};
        unique := unique + [sources[i]];
      }
      i := i + 1;
    }
    assert sources[..i] == sources;
  }

  /** The second loop of `deduplicate_and_format_sources`: one block per
      retained hit, numbered from 1. */
  method FormatBlocks(unique: seq<Source>, maxTokens: int) returns (formatted: seq<string>)
    ensures formatted == Blocks(unique, maxTokens)
  {
    formatted := [];
    var k := 0;
    while k < |unique|
      invariant 0 <= k <= |unique|
      invariant |formatted| == k
      invariant forall j :: 0 <= j < k ==> formatted[j] == Block(j + 1, unique[j], maxTokens)
    {
      formatted := formatted + [Block(k + 1, unique[k], maxTokens)];
      k := k + 1;
    }
  }

  /** `deduplicate_and_format_sources`: a first loop keeps a hit when its URL is
      non-empty and not yet seen, a second numbers the kept hits as blocks, and
      the blocks are joined with blank lines. */
  method DeduplicateAndFormatSources(sources: seq<Source>, maxTokens: int) returns (text: string)
    ensures text == Join(Blocks(Retained(sources), maxTokens), "\n\n")
  {
    var unique := RetainUnique(sources);
    var formatted := FormatBlocks(unique, maxTokens);
    text := Join(formatted, "\n\n");
  }
}

=== FILE: text.dfy ===
/** String helpers with the meaning of the Python built-ins the program uses:
    `str.join`, `str.split('\n')`, `str.strip()` emptiness, `str(int)`,
    `str.startswith` and `str.endswith`. */
module Text {

  /** `sep.join(parts)`. */
  function Join(parts: seq<string>, sep: string): string
  {
    if |parts| == 0 then ""
    else if |parts| == 1 then parts[0]
    else parts[0] + sep + Join(parts[1..], sep)
  }

  /** `"".join(f(x) for x in xs)`, the result of repeated `+=`. */
  function ConcatMap<T>(f: T -> string, xs: seq<T>): string
  {
    if |xs| == 0 then "" else ConcatMap(f, xs[..|xs| - 1]) + f(xs[|xs| - 1])
  }

  /** The text of a concatenation is the texts of its parts, in order. */
  lemma {:induction false} ConcatMapAppend<T>(f: T -> string, a: seq<T>, b: seq<T>)
    ensures ConcatMap(f, a + b) == ConcatMap(f, a) + ConcatMap(f, b)
    decreases |b|
  {
    if |b| == 0 {
      assert a + b == a;
    } else {
      var init, last, ab := b[..|b| - 1], b[|b| - 1], a + b;
      assert ab[..|ab| - 1] == a + init;
      assert ab[|ab| - 1] == last;
      ConcatMapAppend(f, a, init);
      var x, y, z := ConcatMap(f, a), ConcatMap(f, init), f(last);
      assert ConcatMap(f, ab) == (x + y) + z;
      assert ConcatMap(f, b) == y + z;
      assert (x + y) + z == x + (y + z);
    }
  }

  /** One more element adds its text at the end. */
  lemma ConcatMapPrefix<T>(f: T -> string, xs: seq<T>, i: nat)
    requires i < |xs|
    ensures ConcatMap(f, xs[..i + 1]) == ConcatMap(f, xs[..i]) + f(xs[i])
  {
    assert xs[..i + 1][..i] == xs[..i];
  }

  /** `s.split('\n')`: never empty, one more piece than there are newlines. */
  function SplitLines(s: string): (r: seq<string>)
    ensures |r| >= 1
  {
    if |s| == 0 then [""]
    else if s[0] == '\n' then [""] + SplitLines(s[1..])
    else var rest := SplitLines(s[1..]); [[s[0]] + rest[0]] + rest[1..]
  }

  predicate NoNewline(s: string)
  {
    forall i :: 0 <= i < |s| ==> s[i] != '\n'
  }

  /** The pieces of a split never contain the separator. */
  lemma {:induction false} SplitLinesHasNoNewline(s: string)
    ensures forall k :: 0 <= k < |SplitLines(s)| ==> NoNewline(SplitLines(s)[k])
  {
    if |s| > 0 {
      SplitLinesHasNoNewline(s[1..]);
    }
  }

  /** Splitting undoes joining, when no part holds the separator. */
  lemma {:induction false} SplitJoin(parts: seq<string>)
    requires |parts| >= 1
    requires forall k :: 0 <= k < |parts| ==> NoNewline(parts[k])
    ensures SplitLines(Join(parts, "\n")) == parts
  {
    if |parts| == 1 {
      SplitSingle(parts[0]);
    } else {
      SplitJoin(parts[1..]);
      SplitPrefix(parts[0], Join(parts[1..], "\n"));
    }
  }

  lemma {:induction false} SplitSingle(s: string)
    requires NoNewline(s)
    ensures SplitLines(s) == [s]
  {
    if |s| > 0 {
      assert NoNewline(s[1..]) by {
        forall i | 0 <= i < |s[1..]| ensures s[1..][i] != '\n' { assert s[1..][i] == s[i + 1]; }
      }
      SplitSingle(s[1..]);
      assert [s[0]] + s[1..] == s;
    }
  }

  /** Splitting `a + "\n" + b` puts `a` in front of the pieces of `b`. */
  lemma {:induction false} SplitPrefix(a: string, b: string)
    requires NoNewline(a)
    ensures SplitLines(a + "\n" + b) == [a] + SplitLines(b)
  {
    if |a| == 0 {
      assert a + "\n" + b == "\n" + b;
      assert ("\n" + b)[1..] == b;
    } else {
      assert (a + "\n" + b)[1..] == a[1..] + "\n" + b;
      SplitPrefix(a[1..], b);
      assert [a[0]] + a[1..] == a;
    }
  }

  /** Joining undoes splitting. */
  lemma {:induction false} JoinSplit(s: string)
    ensures Join(SplitLines(s), "\n") == s
  {
    if |s| > 0 {
      JoinSplit(s[1..]);
      var rest := SplitLines(s[1..]);
      if s[0] == '\n' {
        assert Join([""] + rest, "\n") == "" + "\n" + Join(rest, "\n");
      } else {
        var r := [[s[0]] + rest[0]] + rest[1..];
        if |rest| == 1 {
          assert Join(r, "\n") == [s[0]] + rest[0];
        } else {
          assert r[1..] == rest[1..];
          assert Join(r, "\n") == [s[0]] + rest[0] + "\n" + Join(rest[1..], "\n");
          assert Join(rest, "\n") == rest[0] + "\n" + Join(rest[1..], "\n");
        }
        assert s == [s[0]] + s[1..];
      }
    }
  }

  /** The characters `str.strip()` removes (those for which `str.isspace()` holds). */
  predicate IsSpace(c: char)
  {
    ('\t' <= c <= '\r') || ('\U{1c}' <= c <= ' ') || c == '\U{85}' || c == '\U{a0}'
    || c == '\U{1680}' || ('\U{2000}' <= c <= '\U{200a}') || c == '\U{2028}' || c == '\U{2029}'
    || c == '\U{202f}' || c == '\U{205f}' || c == '\U{3000}'
  }

  /** `not s.strip()`. */
  predicate IsBlank(s: string)
  {
    forall i :: 0 <= i < |s| ==> IsSpace(s[i])
  }

  function DigitChar(d: nat): (c: char)
    requires d < 10
    ensures '0' <= c <= '9'
  {
    "0123456789"[d]
  }

  /** `str(n)` for a non-negative integer: its decimal digits, no leading zero. */
  function NatToString(n: nat): (r: string)
    ensures |r| >= 1
    ensures forall i :: 0 <= i < |r| ==> '0' <= r[i] <= '9'
    ensures |r| > 1 ==> r[0] != '0'
  {
    if n < 10 then [DigitChar(n)] else NatToString(n / 10) + [DigitChar(n % 10)]
  }

  predicate StartsWith(s: string, prefix: string)
  {
    |prefix| <= |s| && s[..|prefix|] == prefix
  }

  predicate EndsWith(s: string, suffix: string)
  {
    |suffix| <= |s| && s[|s| - |suffix|..] == suffix
  }

  /** A concatenation starts with its left part and ends with its right part. */
  lemma AppendEnds(a: string, b: string)
    ensures StartsWith(a + b, a) && EndsWith(a + b, b)
  {
    assert (a + b)[..|a|] == a;
    assert (a + b)[|a + b| - |b|..] == b;
  }

  lemma StartsWithTransitive(s: string, t: string, u: string)
    requires StartsWith(s, t) && StartsWith(t, u)
    ensures StartsWith(s, u)
  {
    assert s[..|u|] == s[..|t|][..|u|];
  }

  lemma EndsWithTransitive(s: string, t: string, u: string)
    requires EndsWith(s, t) && EndsWith(t, u)
    ensures EndsWith(s, u)
  {
    assert s[|s| - |u|..] == s[|s| - |t|..][|t| - |u|..];
  }

  predicate IsDigits(s: string)
  {
    forall i :: 0 <= i < |s| ==> '0' <= s[i] <= '9'
  }
}

=== FILE: wrappers.dfy ===
/** Option and Result, used for the absent keys of the state record and for the
    exceptions the program lets propagate. */
module Wrappers {

  datatype Option<+T> = None | Some(value: T) {
    /** The value, or `default` when absent (Python's `dict.get(key, default)`). */
    function GetOr(default: T): T {
      match this
      case Some(v) => v
      case None => default
    }
  }

  datatype Result<+R, +E> = Ok(value: R) | Err(error: E)
}
